=== FILE: README.md ===
# critical-reader: pipeline planning and resource state, in Dafny

critical-reader is a terminal application for reading papers and web pages with the help of an LLM.
A *project* (stored as a conversation row) has one configuration and a list of *resources*.
A configuration picks a downloader, a text extractor, an embedder, a processor with its chunker, and an LLM model.
A resource is a URL with a status, scraped content and an error message.
When a resource URL is submitted, the application validates the project's configuration.
It then plans a chain of job *steps*: first text extraction, then the RAG stage.
Job handlers move the resource through its statuses and append events to a per-conversation event log.

This project models that decision logic as pure Dafny functions and methods over immutable data:

- configuration validation and the conversion of configuration rows into value objects (`configuration.dfy`);
- the closed sets of named choices (`constants.dfy`);
- the planner and its per-stage dispatchers (`job_dispatcher.dfy`, `extract_text_dispatcher.dfy`, `rag_simple.dfy`, `jobs.dfy`);
- the resource record, its transitions, and the append-only event log, with the store as a map plus a sequence (`models.dfy`);
- the two job handlers `dummy_rag` and the reachable part of `scrape_web_page_using_requests` (`rag_simple.dfy`, `jina_ai_api.dfy`);
- the `project-N` / `conversation-N` UI identifiers (`identifiers.dfy`);
- the project view (`project_manager.dfy`);
- arXiv result normalisation and content file names (`arxiv.dfy`, `content_utils.dfy`);
- the TUI's table formatting and the order of the checks in the submit-URL handler (`resource_widget.dfy`, `project_widget.dfy`).

`strings.dfy` gives the Python string operations the code relies on a definition and a specification:

- `str.split(sep)[-1]` (`Split`/`AfterLast`, with `Join` as the inverse);
- `int()` and `str()` on integers;
- the substring test `x in s`;
- single-character `replace`.

Python exceptions and failed `assert`s become `Failure` values of a `Result`, or `Fail` of an `Outcome`.
The traceback text of `traceback.format_exc()` is an opaque `trace` parameter.
The code stamps each log entry with the wall-clock time (`auto_now`).
The model assumes instead that every write takes a stamp from a counter that only moves forward.
Under that assumption, ordering by `date_updated` is the same as ordering by insertion.

Three behaviours of the code worth knowing:

- `scrape_web_page_using_requests` appends no events.
- That handler lets the failure on a missing resource escape: its `except` clause dereferences `None` itself.
- `Config.project_id` is filled from the configuration row's own id, not from the project's id.

## Model

| member | source | states |
|---|---|---|
| Constants.NamesIdentifyChoices | app/common/constants.py:1-39 | Distinct providers, downloader types, resource statuses and chunker types are stored as distinct text. `reader_models()` is exactly `["ReaderLM-v2"]`. "Simple RAG" is the only processor type. |
| Constants.ReaderModels | app/common/constants.py:10-12 | Definition of `JINA_AI_MODELS.reader_models()`; stated by `Constants.NamesIdentifyChoices`. |
| Configuration.ValidateDownloader | app/configuration/models.py:19-20 | Definition of `Downloader.validate`; its pass and fail cases are stated by `Configuration.DownloaderValidIff`. |
| Configuration.ValidateTextExtractor | app/configuration/models.py:66-69 | Definition of `TextExtractor.validate`; stated by `Configuration.TextExtractorValidIff`. |
| Configuration.ValidateEmbedder | app/configuration/models.py:119-120 | Definition of `Embedder.validate`; stated by `Configuration.PermissiveChecksPass`. |
| Configuration.ValidateProcessor | app/configuration/models.py:221-222 | Definition of `Processor.validate`; stated by `Configuration.PermissiveChecksPass`. |
| Configuration.ValidateLlmModel | app/configuration/models.py:280-281 | Definition of `LLMModel.validate`; stated by `Configuration.PermissiveChecksPass`. |
| Configuration.Validate | app/configuration/models.py:430-435 | Definition of `Config.validate`; stated by `Configuration.ValidateIsConjunction` and `Configuration.ValidIff`. |
| Configuration.DownloaderValidIff | app/configuration/models.py:19-20 | `Downloader.validate` passes exactly for "Jina AI reader using Jina API". The seeded "Web page scraper" never validates. |
| Configuration.TextExtractorValidIff | app/configuration/models.py:66-69 | With the Jina API downloader, the extractor validates iff its provider is "Jina AI" and its model is in `reader_models()`. With any other downloader it always passes. |
| Configuration.PermissiveChecksPass | app/configuration/models.py:119-120 | The embedder, processor and LLM-model checks accept every value (also lines 221-222 and 280-281). |
| Configuration.ValidateIsConjunction | app/configuration/models.py:430-435 | `Config.validate` passes iff all five component checks pass. Otherwise it raises the first failing check's error, in source order. |
| Configuration.ValidIff | app/configuration/models.py:430-435 | For a configuration whose extractor carries its own downloader, validation passes iff downloader = Jina API and extractor = (Jina AI, ReaderLM-v2). |
| Configuration.DownloaderToObj | app/configuration/models.py:56-57 | Definition of `DownloaderRow.to_obj`, copying the downloader text; its use in `ato_obj` is stated by `Configuration.AtoObjSucceedsIff`. |
| Configuration.TextExtractorToObj | app/configuration/models.py:102-105 | Definition of `TextExtractorRow.to_obj`, copying provider and model and keeping the given downloader; that sharing is stated by `Configuration.AtoObj` (`SharesDownloader`). |
| Configuration.EmbedderToObj | app/configuration/models.py:162-163 | Definition of `EmbedderRow.to_obj`, copying provider and model; part of `Configuration.Assemble`. |
| Configuration.LlmModelToObj | app/configuration/models.py:302-303 | Definition of `LLMModelRow.to_obj`, copying the model name; part of `Configuration.Assemble`. |
| Configuration.ChunkerToObj | app/configuration/models.py:212-213 | The chunker's type and size are copied verbatim. |
| Configuration.ProcessorAtoObj | app/configuration/models.py:267-269 | Loads the processor's chunker row. It fails with `DoesNotExist` iff that row is missing, and otherwise copies type and chunker verbatim. |
| Configuration.Assemble | app/configuration/models.py:373-389 | Definition of the configuration `ato_obj` builds from present rows, before `validate()`; `Configuration.AtoObj` states that a success returns exactly it. |
| Configuration.AtoObj | app/configuration/models.py:372-392 | `ato_obj` returns only a configuration that passed `validate()`, whose extractor shares the stored downloader, with `project_id` = the row's id. It succeeds iff every referenced row exists and the assembled configuration validates. With all rows present, the error is the validation error. |
| Configuration.AtoObjSucceedsIff | app/configuration/models.py:372-392 | `ato_obj` succeeds iff all rows exist, the downloader is the Jina API reader and the extractor is (Jina AI, ReaderLM-v2). The processor's type and chunker are then the stored ones. |
| Configuration.ConfigRowOfProject | app/configuration/models.py:346-352 | `aget_by_project` returns a row exactly when the project has one, and `None` instead of raising otherwise. The row returned is the one stored for that project, and its `project_id` is the project asked for whenever rows are filed under their own project. |
| Configuration.ProjectConfigDbIdFromUiId | app/configuration/models.py:416-418 | Definition of `ProjectConfigRow.db_id_from_ui_id`; stated by `Configuration.ProjectConfigUiIdRoundTrip`. |
| Configuration.ProjectConfigUiIdRoundTrip | app/configuration/models.py:416-418 | `db_id_from_ui_id("project-" + str(n)) == n` for every integer n. |
| Configuration.ConfigRowOfProjectUiId | app/configuration/models.py:362-370 | `aget_by_project_id_for_ui` raises iff the UI id does not end in a number. Otherwise it is the project's row or `None`. |
| Identifiers.MakeUiId | app/common/models.py:54-56 | Definition of `f"{prefix}{id}"`; stated by `Identifiers.UiIdRoundTrip`. |
| Identifiers.DbIdFromUiId | app/common/models.py:58-60 | Definition of `int(ui_id.split(prefix)[-1])`, with `None` for the `ValueError`; stated by `Identifiers.UiIdRoundTrip` and `Identifiers.ProjectUiIdIsNotConversationUiId`. |
| Identifiers.UiIdRoundTrip | app/common/models.py:54-60 | `int(ui_id.split(prefix)[-1])` reads back `prefix + str(n)` as n, for every prefix that does not start with a digit or '-'. |
| Identifiers.ProjectUiIdIsNotConversationUiId | app/common/models.py:58-60 | Reading a `project-N` id with the `conversation-` prefix raises `ValueError`. |
| Models.NewResource | app/common/models.py:135-139 | A new resource has status New, no scraped content and no error message, and keeps its conversation, URL and parent. |
| Models.SetDownloadFinished | app/common/models.py:141-143 | The status becomes Downloaded from any prior status. No other field changes. |
| Models.SetScrapingFinished | app/common/models.py:145-147 | The status becomes Scraped from any prior status. No other field changes. |
| Models.SetProcessed | app/common/models.py:149-151 | The status becomes Processed from any prior status. No other field changes. |
| Models.AddError | app/common/models.py:153-161 | The status becomes Error and the message is stored verbatim. Scraped content and identity are unchanged. |
| Models.AddScrapedContent | app/common/models.py:192-194 | Only `scraped_content` changes. The status does not. |
| Models.TransitionsIgnorePriorStatus | app/common/models.py:141-161 | Two resources that differ only in status give equal results under each transition. |
| Models.GetById | app/common/models.py:185-190 | `get_by_id` returns the row iff it exists, and `None` instead of raising. |
| Models.Save | app/common/models.py:141-161 | `save()` overwrites one row, keeps the other rows, the log and the conversations, and preserves the store invariant. |
| Models.AppendEvent | app/common/models.py:222-227 | `EventLogRows.create` appends exactly one entry, with a timestamp later than every earlier one. It preserves the store invariant when the entry's conversation exists. |
| Models.CreateEvent | app/common/models.py:222-227 | `EventLogRows.create` fails with an integrity error iff the conversation does not exist (the foreign key). Otherwise it appends exactly that one entry and advances the clock by one. The resources, conversations and id counters stay as they were, and the store invariant is preserved. |
| Models.ConversationUiId | app/common/models.py:54-56 | Definition of `ConversationRow.id_for_ui`; stated by `Models.ConversationUiIdRoundTrip`. |
| Models.ConversationDbIdFromUiId | app/common/models.py:58-60 | Definition of `ConversationRow.db_id_from_ui_id`; stated by `Models.ConversationUiIdRoundTrip`. |
| Models.ConversationUiIdRoundTrip | app/common/models.py:54-60 | `db_id_from_ui_id(id_for_ui) == id` for a conversation. |
| Models.CreateConversation | app/common/models.py:65-69 | `ConversationRow.acreate` adds a fresh conversation and appends exactly one `CONVERSATION_CREATED` event for it. |
| Models.CreateResource | app/common/models.py:172-183 | `ResourceRow.acreate` succeeds iff the UI id parses to an existing conversation. The fresh row is New, and exactly one `RESOURCE_ADDED` event naming it is appended. |
| Models.EntriesOf | app/common/models.py:245-247 | Filtering the log by conversation keeps exactly that conversation's entries, each as often as it occurs in the log, as a subsequence of the log. |
| Models.EntriesOfIncreasing | app/common/models.py:245-247 | The filtered entries keep the log's order, so their time stamps increase whenever the log's do. |
| Models.LogsForConversation | app/common/models.py:236-257 | It raises for an unparsable or unknown conversation. Otherwise it returns exactly that conversation's events, ordered by update time. |
| ExtractTextDispatcher.Dispatcher | app/common/jobs/extract_text/job_dispatcher.py:9-18 | Provider "Jina AI" selects `scrape_web_page_using_requests`. Every other provider raises with that provider and the supported list `["Jina AI"]`. |
| ExtractTextDispatcher.DispatcherReadsOnlyProvider | app/common/jobs/extract_text/job_dispatcher.py:11-14 | Two configurations with the same extractor provider get the same result. |
| ExtractTextDispatcher.UnknownTextExtractorMessage | app/common/jobs/extract_text/job_dispatcher.py:16-18 | Definition of the exception text; stated by `ExtractTextDispatcher.MessageNamesProviderAndSupported`. |
| ExtractTextDispatcher.MessageNamesProviderAndSupported | app/common/jobs/extract_text/job_dispatcher.py:16-18 | The exception message contains the provider and every supported provider, quoted. |
| RagSimple.RagDispatcher | app/common/jobs/rags/simple.py:26-27 | The RAG stage is the one job `dummy rag`. |
| RagSimple.RagDispatcherIgnoresConfig | app/common/jobs/rags/simple.py:26-27 | Every configuration gets the same RAG jobs. |
| RagSimple.RunDummyRag | app/common/jobs/rags/simple.py:8-23 | A missing resource gets exactly one error event, with nothing else changed, when the conversation exists. When it does not, the event insert raises an integrity error and nothing changes. Otherwise the resource becomes Processed, and one `RESOURCE_PROCESSED` event is appended against its own conversation. If that conversation is gone, reading it raises `DoesNotExist` after the status was saved, and no event is written. Apart from resources, log and clock nothing changes. In a consistent store nothing raises for an existing resource. |
| JinaAiApi.ScrapeWebPage | app/common/jobs/extract_text/using_apis/jina_ai_api.py:11-24 | A missing resource escapes as an exception. Otherwise the resource passes through Downloaded to Scraped, or ends in Error with the traceback when the configuration cannot be loaded or the resource's conversation is gone (the `DoesNotExist` of reading it is caught). Only that one resource row changes. |
| JobDispatcher.DownloadJob | app/common/jobs/job_dispatcher.py:23-30 | Nothing to schedule for the Jina API downloader. Every other downloader raises. |
| JobDispatcher.TextExtractorJob | app/common/jobs/job_dispatcher.py:32-34 | The extract-text dispatcher's job iff the provider is "Jina AI". Otherwise `None`, without raising. |
| JobDispatcher.RagStepJobs | app/common/jobs/job_dispatcher.py:36-45 | Exactly one group for (Simple RAG, No chunking). Otherwise an exception naming the chunker or the processor, before any group. |
| JobDispatcher.CreateResourceProcessingPipeline | app/common/jobs/job_dispatcher.py:48-69 | Covers the whole chain. A wrong event or downloader raises before any step. The first step is the text-extraction job with `(project_id, resource_id)`. Each yielded group becomes the next step with the same arguments, so the length is 1 + groups. A chunker or processor error comes after the first step exists. There is no error iff the event, downloader, processor and chunker are the supported ones. |
| JobDispatcher.ValidConfigReachesRagStage | app/common/jobs/job_dispatcher.py:23-34 | A configuration that passed validation clears the download stage and selects the scraping job. |
| ContentUtils.MakeRawContentFilename | app/common/content/utils.py:4-5 | The name is `dir + "/raw_" + id' + ".pdf"`. `id'` has the id's length and no '/', and differs from the id only where a '/' became '_'. |
| ContentUtils.MakeCleanContentFilename | app/common/content/utils.py:8-9 | The name is `dir + "/scraped_" + raw + ".txt"`, with the raw name embedded whole. |
| Arxiv.LastPdfLink | app/common/content/download/arxiv.py:20-24 | There is none iff no link mentions "pdf". Otherwise it is a link that mentions "pdf", and no later link does. |
| Arxiv.StripVersionAtEnd | app/common/content/download/arxiv.py:26 | A trailing 'v' plus digits is removed when present. Otherwise the text is unchanged. |
| Arxiv.StripVersionSuffix | app/common/content/download/arxiv.py:26 | As above, where `$` may also match just before a final newline, which is kept. |
| Arxiv.ExportUrl | app/common/content/download/arxiv.py:30-32 | Definition of the download URL; stated by `Arxiv.ExportUrlKeepsPathAfterScheme`. |
| Arxiv.ProcessPaper | app/common/content/download/arxiv.py:19-32 | Definition of one paper's record; stated by `Arxiv.ProcessPaperFields`. |
| Arxiv.ExportUrlKeepsPathAfterScheme | app/common/content/download/arxiv.py:30-32 | The download URL is "https://export." followed by the part of the cleaned URL after its last "://". That part is a suffix without "://". |
| Arxiv.ProcessPaperFields | app/common/content/download/arxiv.py:18-33 | `pdf_url` is the href of the last pdf link. The id, date, title and summary are copied verbatim, and the cleaned and download URLs are derived as above. |
| Arxiv.ProcessSearchResults | app/common/content/download/arxiv.py:16-34 | One record per paper, in input order, iff every paper has a pdf link. Otherwise `ValueError` at the first paper without one. |
| ProjectManager.MakeIdForUi | app/common/project_manager.py:36-37 | Definition of `Project.make_id_for_ui`; stated by `ProjectManager.ProjectUiIdRoundTrip`. |
| ProjectManager.DbIdFromUiId | app/common/project_manager.py:40-42 | Definition of `Project.db_id_from_ui_id`; stated by `ProjectManager.ProjectUiIdRoundTrip`. |
| ProjectManager.ProjectUiIdRoundTrip | app/common/project_manager.py:36-42 | `db_id_from_ui_id(make_id_for_ui(n)) == n`. |
| ProjectManager.AcreateFromDbRow | app/common/project_manager.py:15-31 | `id_in_db` = the row's id and `id_for_ui = make_id_for_ui(id)`. Resources map one-to-one to `(url, status)` in order. The config is `{}` iff the project has no configuration row. |
| ProjectManager.SetAppState | app/common/project_manager.py:52-59 | The assertion fails iff the project does not exist. Otherwise the active project has that project's ids, one summary per resource row with its URL and status, and the project's configuration row, or an empty configuration iff it has none. |
| ProjectWidget.ResourceCell | app/tui/widgets/project.py:35 | The cell is the URL, then " -> ", then the status text, each at its own position. |
| ProjectWidget.MakeSummaryRows | app/tui/widgets/project.py:28-40 | With no resources there is one row: id, "Add resources!" marker, config. Otherwise one row per resource in order, and only the first carries the id and config. |
| ResourceWidget.DisplayUrl | app/tui/widgets/resource.py:66-69 | URLs of at most 50 characters are shown unchanged. Longer ones become their first 50 characters plus "...", so at most 53. |
| ResourceWidget.DisplayError | app/tui/widgets/resource.py:70 | Every newline becomes a space and nothing else changes. A missing message shows as "". |
| ResourceWidget.MakeRows | app/tui/widgets/resource.py:63-71 | One row per resource, in order, with its id, shown URL, status text and shown error. |
| ResourceWidget.OnInputSubmitted | app/tui/widgets/resource.py:28-56 | An invalid URL or a missing configuration returns before any resource exists. An unparsable project id raises before that too. A configuration rejected by `ato_obj` leaves the new resource New without an error. A planner exception marks it Error with the traceback and is re-raised; the steps planned before it are kept, and it happens iff the chunker or processor is not supported. Planning succeeds iff the processor is "Simple RAG" and the chunker is "No chunking". |
| ResourceWidget.ProjectUiIdCreatesNoResource | app/common/models.py:172-176 | `ResourceRow.acreate` given a `project-N` id raises `ValueError` and creates nothing. |
| Strings.Split | app/configuration/models.py:416-418 | `str.split(sep)`: the pieces joined with `sep` give back the text, and no piece contains `sep`. |
| Strings.AfterLast | app/common/project_manager.py:42 | Definition of `split(sep)[-1]`; stated by `Strings.AfterLastSeparator`. |
| Strings.Contains | app/common/content/download/arxiv.py:21 | Definition of `sub in s`; used by `Arxiv.LastPdfLink` and `ExtractTextDispatcher.MessageNamesProviderAndSupported`. |
| Strings.AfterLastSeparator | app/common/project_manager.py:40-42 | `split(sep)[-1]` is a suffix of the text without `sep`, preceded by `sep` whenever the text was cut. |
| Strings.IntToString | app/common/project_manager.py:37 | Definition of `str(n)`; stated by `Strings.ParseIntOfIntToString`. |
| Strings.ParseInt | app/common/project_manager.py:42 | Definition of `int(s)` on an optional sign and decimal digits, with `None` for the `ValueError`; stated by `Strings.ParseIntOfIntToString`. |
| Strings.ParseIntOfIntToString | app/common/project_manager.py:40-42 | `int(str(n)) == n`. |

## Left out

- Django ORM persistence, `async`/sync duplicates, `create_default_rows` and the admin: storage is a map plus an append-only sequence; duplicates behave the same.
- `ProjectConfigRow.ato_dict` and the `to_dict` methods: the project view keeps the configuration row (`ConfigOf(row)`) instead of the dictionary built from it, and that dictionary's own row lookups are not modelled.
- `ProjectConfigRow.to_obj` (app/configuration/models.py:394-414): it does not run as written (a positional `project_id == self.id`, and `llm_model` loaded by `processor_id`); `ato_obj` is modelled instead.
- The job runtime (`Step`, `job`, timeouts, workers): the planner returns the chain of steps it built; how the runtime invokes handlers is not part of this model. The planner gives each job `(project_id, resource_id)` while `scrape_web_page_using_requests` takes only `resource_id`; that mismatch lives in the runtime and is not modelled.
- `ConversationConfigRow` and `EventTypes` are not defined in the files modelled: the configuration lookup in `scrape_web_page_using_requests` is a parameter (`configOf`), and the event types are the four names the code uses.
- `ProjectRow`, `ResourceRow.aget_all_by_project_id`, `aget_all_by_project_id_for_ui` and `AppState.active_project_id` are not part of this model: a project is a conversation row, the resource query results are parameters, and the active project id is an opaque string.
- The unreachable HTTP call in `scrape_web_page_using_requests` (lines 26-39), the arXiv search and download, and PDF extraction: network and file I/O.
- `DIR_PATH` comes from a module that is not part of this model; it is a parameter.
- TUI rendering, timers, screens and chat UI; Django's `URLValidator` is the `urlValid` parameter.
- `ProjectManager.acreate_new`, `aadd_resource` and `aget_all`: creation and iteration glue over the modelled operations (`aadd_resource` also passes `project_id=` to `ResourceRow.acreate`, whose parameter is named differently).
- Strings.ParseInt: `int()` is modelled as an optional sign followed by ASCII digits; surrounding whitespace, `_` separators and non-ASCII digits are not accepted.
- Arxiv.StripVersionAtEnd: `\d` is modelled as the ASCII digits only; Python's `re` also matches other Unicode decimal digits.
- Models.AppendEvent: stamps come from a counter that moves forward with every write, not from the wall clock (`auto_now`), so two entries never tie and the clock never steps back.
- Models.LogsForConversation: ordering by `date_updated` is taken to be insertion order, which holds only under the counter assumption above.
- JobDispatcher.TextExtractorJob: when no text extractor job is selected the planner still adds `None` to the step; the runtime is assumed to accept that, and what it does with it is not modelled.
- Models.LogEntry: the entity id is kept as an integer, while the column stores its text.
- Arxiv.ProcessSearchResults: the `published` date is kept as opaque text.

=== FILE: arxiv.dfy ===
/** Normalisation of arXiv search results (`process_search_results` in
    `content/download/arxiv.py`). The search and the download are I/O and are
    not part of this model. */
module Arxiv {
  import opened Wrappers
  import opened Strings

  datatype Link = Link(href: string)

  /** The fields of an `arxiv.Result` that are read. `published` is kept as
      an opaque text. */
  datatype SearchResult = SearchResult(entryId: string, links: seq<Link>, published: string, title: string, summary: string)

  /** The dictionary built for one paper. */
  datatype PaperRecord = PaperRecord(
    pdfUrl: string,
    id: string,
    pdfUrlCleaned: string,
    publishedDate: string,
    title: string,
    summary: string,
    pdfDownloadUrl: string)

  /** The `ValueError` raised for the paper at this index, which has no pdf link. */
  datatype ArxivError = NoPdfLink(index: nat)

  /** A paper the loop accepts: one of its links mentions "pdf". */
  predicate HasPdfLink(p: SearchResult) {
    LastPdfLink(p.links).Some?
  }

  predicate IsPdfLink(l: Link) {
    Contains(l.href, "pdf")
  }

  /** The index of the last link whose href contains "pdf": the loop
      overwrites `pdf_url` with every such link. */
  function LastPdfLink(links: seq<Link>): (r: Option<nat>)
    ensures r.None? <==> forall i :: 0 <= i < |links| ==> !IsPdfLink(links[i])
    ensures r.Some? ==>
      && r.value < |links|
      && IsPdfLink(links[r.value])
      && forall j :: r.value < j < |links| ==> !IsPdfLink(links[j])
    decreases |links|
  {
    if links == [] then None
    else if IsPdfLink(links[|links| - 1]) then Some(|links| - 1)
    else
      var r := LastPdfLink(links[..|links| - 1]);
      assert forall i :: 0 <= i < |links| - 1 ==> links[..|links| - 1][i] == links[i];
      r
  }

  /** `r` is `s` without a final 'v' followed by one or more digits. */
  predicate VersionSuffixOf(s: string, r: string) {
    && |r| + 2 <= |s|
    && s[..|r|] == r
    && s[|r|] == 'v'
    && AllDigits(s[|r| + 1..])
  }

  /** How many digits end `s`. */
  function TrailingDigits(s: string): (n: nat)
    ensures n <= |s|
    ensures forall i :: |s| - n <= i < |s| ==> IsDigit(s[i])
    ensures n < |s| ==> !IsDigit(s[|s| - n - 1])
    decreases |s|
  {
    if s == [] || !IsDigit(s[|s| - 1]) then 0
    else
      var n := TrailingDigits(s[..|s| - 1]);
      assert forall i :: 0 <= i < |s| - 1 ==> s[..|s| - 1][i] == s[i];
      n + 1
  }

  /** A version suffix is exactly the digits that end `s` and the 'v'
      before them, so at most one `p` has `VersionSuffixOf(s, p)`. */
  lemma VersionSuffixFixesTrailingDigits(s: string)
    ensures forall p :: VersionSuffixOf(s, p) ==> TrailingDigits(s) == |s| - |p| - 1
  {
    forall p | VersionSuffixOf(s, p)
      ensures TrailingDigits(s) == |s| - |p| - 1
    {
      forall i | |p| + 1 <= i < |s|
        ensures IsDigit(s[i])
      {
        assert s[i] == s[|p| + 1..][i - |p| - 1];
      }
    }
  }

  /** `re.sub(r"v\d+$", "", s)` where `$` is the end of `s`: the version
      suffix is removed when there is one, and `s` is returned unchanged when
      there is none. */
  function StripVersionAtEnd(s: string): (r: string)
    ensures VersionSuffixOf(s, r) || (r == s && forall p :: !VersionSuffixOf(s, p))
  {
    var n := TrailingDigits(s);
    if n > 0 && n < |s| && s[|s| - n - 1] == 'v' then
      var r := s[..|s| - n - 1];
      assert s[|r| + 1..] == s[|s| - n..];
      r
    else
      VersionSuffixFixesTrailingDigits(s);
      s
  }

  /** `re.sub(r"v\d+$", "", url)`. Without `MULTILINE`, `$` also matches just
      before a final newline, which is kept. */
  function StripVersionSuffix(url: string): (r: string)
    ensures |url| > 0 && url[|url| - 1] == '\n' ==>
      |r| > 0 && r[|r| - 1] == '\n' && r[..|r| - 1] == StripVersionAtEnd(url[..|url| - 1])
    ensures !(|url| > 0 && url[|url| - 1] == '\n') ==> r == StripVersionAtEnd(url)
  {
    if |url| > 0 && url[|url| - 1] == '\n' then
      var r := StripVersionAtEnd(url[..|url| - 1]) + "\n";
      assert r[..|r| - 1] == StripVersionAtEnd(url[..|url| - 1]);
      r
    else
      StripVersionAtEnd(url)
  }

  /** `"https://export." + cleaned.split("://")[-1]`. */
  function ExportUrl(cleaned: string): string {
    "https://export." + AfterLast(cleaned, "://")
  }

  /** The export URL keeps the part of the cleaned URL after its last "://":
      a suffix of it without "://", preceded by "://" unless it is all of it. */
  lemma ExportUrlKeepsPathAfterScheme(cleaned: string)
    ensures var url := ExportUrl(cleaned);
      var rest := url[15..];
      && url[..15] == "https://export."
      && |rest| <= |cleaned|
      && cleaned[|cleaned| - |rest|..] == rest
      && !Contains(rest, "://")
      && (|rest| < |cleaned| ==> |rest| + 3 <= |cleaned| && cleaned[|cleaned| - |rest| - 3..|cleaned| - |rest|] == "://")
  {
    AfterLastSeparator(cleaned, "://");
    var url := ExportUrl(cleaned);
    assert url[15..] == AfterLast(cleaned, "://");
  }

  /** The record for one paper that has a pdf link. */
  function ProcessPaper(p: SearchResult): PaperRecord
    requires HasPdfLink(p)
  {
    var pdfUrl := p.links[LastPdfLink(p.links).value].href;
    var cleaned := StripVersionSuffix(pdfUrl);
    PaperRecord(pdfUrl, p.entryId, cleaned, p.published, p.title, p.summary, ExportUrl(cleaned))
  }

  /** What one record holds: the href of the paper's last pdf link, the
      paper's own id, date, title and summary, the link without its version
      suffix, and the export address made from what follows the last "://"
      of that cleaned link. */
  lemma ProcessPaperFields(p: SearchResult)
    requires HasPdfLink(p)
    ensures Contains(ProcessPaper(p).pdfUrl, "pdf")
    ensures exists k :: 0 <= k < |p.links| && p.links[k].href == ProcessPaper(p).pdfUrl
                        && forall j :: k < j < |p.links| ==> !IsPdfLink(p.links[j])
    ensures ProcessPaper(p).id == p.entryId && ProcessPaper(p).publishedDate == p.published
    ensures ProcessPaper(p).title == p.title && ProcessPaper(p).summary == p.summary
    ensures ProcessPaper(p).pdfUrlCleaned == StripVersionSuffix(ProcessPaper(p).pdfUrl)
    ensures ProcessPaper(p).pdfDownloadUrl == ExportUrl(ProcessPaper(p).pdfUrlCleaned)
  {
    var k := LastPdfLink(p.links).value;
    assert p.links[k].href == ProcessPaper(p).pdfUrl;
  }

  /** `process_search_results`: one record per paper, in input order, or the
      `ValueError` for the first paper without a pdf link. */
  method ProcessSearchResults(results: seq<SearchResult>) returns (r: Result<seq<PaperRecord>, ArxivError>)
    ensures r.Success? <==> forall i :: 0 <= i < |results| ==> HasPdfLink(results[i])
    ensures r.Success? ==>
      && |r.value| == |results|
      && forall i :: 0 <= i < |results| ==> r.value[i] == ProcessPaper(results[i])
    ensures r.Failure? ==>
      && r.error.index < |results|
      && !HasPdfLink(results[r.error.index])
      && forall j :: 0 <= j < r.error.index ==> HasPdfLink(results[j])
  {
    var dataset: seq<PaperRecord> := [];
    var k := 0;
    while k < |results|
      invariant 0 <= k <= |results|
      invariant |dataset| == k
      invariant forall j :: 0 <= j < k ==> HasPdfLink(results[j])
      invariant forall j :: 0 <= j < k ==> dataset[j] == ProcessPaper(results[j])
    {
      if !HasPdfLink(results[k]) {
        return Failure(NoPdfLink(k));
      }
      var rec := ProcessPaper(results[k]);
      dataset := dataset + [rec];
      k := k + 1;
    }
    r := Success(dataset);
  }
}

=== FILE: configuration.dfy ===
/** A project's pipeline configuration: the value objects the planner reads,
    their validation, and their assembly from the configuration tables
    (`ProjectConfigRow.ato_obj`). */
module Configuration {
  import opened Wrappers
  import opened Strings
  import opened Constants
  import opened Identifiers

  // ---------------------------------------------------------------------------
  // Value objects. Their fields hold the stored text, as the dataclasses do.
  // ---------------------------------------------------------------------------

  datatype Downloader = Downloader(kind: string)

  /** A text extractor carries the downloader it is paired with, because its
      validity depends on it. */
  datatype TextExtractor = TextExtractor(provider: string, modelName: string, downloader: Downloader)

  datatype Embedder = Embedder(provider: string, modelName: string)

  datatype Chunker = Chunker(kind: string, size: Option<int>)

  datatype Processor = Processor(kind: string, chunker: Chunker)

  datatype LlmModel = LlmModel(modelName: string)

  /** `project_id` is filled from the configuration row's own id by `ato_obj`. */
  datatype Config = Config(
    projectId: int,
    downloader: Downloader,
    textExtractor: TextExtractor,
    embedder: Embedder,
    processor: Processor,
    llmModel: LlmModel)

  /** The `AssertionError`s raised by the `validate` methods, one per assert. */
  datatype ValidationError =
    | DownloaderNotSupported(kind: string)
    | ProviderNotSupported(provider: string)
    | ModelNotSupported(modelName: string)

  // ---------------------------------------------------------------------------
  // Validation
  // ---------------------------------------------------------------------------

  const JINA_API_DOWNLOADER: string := JinaAiReaderUsingJinaApi.Name()

  function ValidateDownloader(d: Downloader): Outcome<ValidationError> {
    if d.kind in [JINA_API_DOWNLOADER] then Pass else Fail(DownloaderNotSupported(d.kind))
  }

  /** Only the Jina API downloader constrains the extractor. */
  function ValidateTextExtractor(t: TextExtractor): Outcome<ValidationError> {
    if t.downloader.kind == JINA_API_DOWNLOADER then
      if t.provider != Jina.Name() then Fail(ProviderNotSupported(t.provider))
      else if t.modelName !in ReaderModels() then Fail(ModelNotSupported(t.modelName))
      else Pass
    else
      Pass
  }

  function ValidateEmbedder(e: Embedder): Outcome<ValidationError> {
    Pass
  }

  function ValidateProcessor(p: Processor): Outcome<ValidationError> {
    Pass
  }

  function ValidateLlmModel(m: LlmModel): Outcome<ValidationError> {
    Pass
  }

  /** `Config.validate`: the component checks in order; the first failure is raised. */
  function Validate(c: Config): Outcome<ValidationError> {
    var d := ValidateDownloader(c.downloader);
    if d.Fail? then d
    else
      var t := ValidateTextExtractor(c.textExtractor);
      if t.Fail? then t
      else
        var e := ValidateEmbedder(c.embedder);
        if e.Fail? then e
        else
          var p := ValidateProcessor(c.processor);
          if p.Fail? then p else ValidateLlmModel(c.llmModel)
  }

  /** The seeded "Web page scraper" downloader never validates, and neither does
      any other text than the Jina API reader's; only that reader passes. */
  lemma DownloaderValidIff(d: Downloader)
    ensures ValidateDownloader(d).Pass? <==> d.kind == "Jina AI reader using Jina API"
    ensures ValidateDownloader(Downloader(WebPageScraper.Name())).Fail?
  {
  }

  /** With the Jina API downloader the extractor must be (Jina AI, a reader
      model); with any other downloader the check passes vacuously. */
  lemma TextExtractorValidIff(t: TextExtractor)
    ensures t.downloader.kind != JINA_API_DOWNLOADER ==> ValidateTextExtractor(t).Pass?
    ensures t.downloader.kind == JINA_API_DOWNLOADER ==>
      (ValidateTextExtractor(t).Pass? <==> t.provider == "Jina AI" && t.modelName == "ReaderLM-v2")
  {
  }

  /** The embedder, processor and LLM checks accept everything. */
  lemma PermissiveChecksPass(e: Embedder, p: Processor, m: LlmModel)
    ensures ValidateEmbedder(e).Pass? && ValidateProcessor(p).Pass? && ValidateLlmModel(m).Pass?
  {
  }

  /** `Config.validate` succeeds exactly when all five checks do, and otherwise
      raises the error of the first one that fails. */
  lemma ValidateIsConjunction(c: Config)
    ensures Validate(c).Pass? <==>
      && ValidateDownloader(c.downloader).Pass?
      && ValidateTextExtractor(c.textExtractor).Pass?
      && ValidateEmbedder(c.embedder).Pass?
      && ValidateProcessor(c.processor).Pass?
      && ValidateLlmModel(c.llmModel).Pass?
    ensures ValidateDownloader(c.downloader).Fail? ==> Validate(c) == ValidateDownloader(c.downloader)
    ensures ValidateDownloader(c.downloader).Pass? && ValidateTextExtractor(c.textExtractor).Fail? ==>
      Validate(c) == ValidateTextExtractor(c.textExtractor)
  {
  }

  /** A configuration whose text extractor was built with the configuration's
      own downloader, as `ato_obj` builds it. */
  predicate SharesDownloader(c: Config) {
    c.textExtractor.downloader == c.downloader
  }

  /** In effect only one configuration family validates: the Jina API
      downloader with the (Jina AI, ReaderLM-v2) extractor. */
  lemma ValidIff(c: Config)
    requires SharesDownloader(c)
    ensures Validate(c).Pass? <==>
      && c.downloader.kind == "Jina AI reader using Jina API"
      && c.textExtractor.provider == "Jina AI"
      && c.textExtractor.modelName == "ReaderLM-v2"
  {
    ValidateIsConjunction(c);
    TextExtractorValidIff(c.textExtractor);
  }

  // ---------------------------------------------------------------------------
  // Configuration tables and their conversion to value objects
  // ---------------------------------------------------------------------------

  datatype DownloaderRow = DownloaderRow(downloader: string)
  datatype TextExtractorRow = TextExtractorRow(provider: string, modelName: string)
  datatype EmbedderRow = EmbedderRow(provider: string, modelName: string)
  datatype ChunkerRow = ChunkerRow(kind: string, size: Option<int>)
  datatype ProcessorRow = ProcessorRow(kind: string, chunkerId: int)
  datatype LlmModelRow = LlmModelRow(modelName: string)

  /** A project's choice of one row from each table, by id. */
  datatype ProjectConfigRow = ProjectConfigRow(
    id: int,
    projectId: int,
    downloaderId: int,
    textExtractorId: int,
    embedderId: int,
    processorId: int,
    llmModelId: int)

  /** The configuration tables. `projectConfigs` is keyed by project id: the
      configuration row is one-to-one with its project. */
  datatype Tables = Tables(
    downloaders: map<int, DownloaderRow>,
    textExtractors: map<int, TextExtractorRow>,
    embedders: map<int, EmbedderRow>,
    chunkers: map<int, ChunkerRow>,
    processors: map<int, ProcessorRow>,
    llmModels: map<int, LlmModelRow>,
    projectConfigs: map<int, ProjectConfigRow>)

  datatype Table = DownloaderTable | TextExtractorTable | EmbedderTable | ChunkerTable | ProcessorTable | LlmModelTable

  /** `DoesNotExist` for a dangling id, or the validation failure. */
  datatype ResolveError = RowMissing(table: Table, id: int) | Invalid(error: ValidationError)

  function DownloaderToObj(row: DownloaderRow): Downloader {
    Downloader(row.downloader)
  }

  function TextExtractorToObj(row: TextExtractorRow, d: Downloader): TextExtractor {
    TextExtractor(row.provider, row.modelName, d)
  }

  function EmbedderToObj(row: EmbedderRow): Embedder {
    Embedder(row.provider, row.modelName)
  }

  /** `ChunkerRow.to_obj`: type and size are copied verbatim. */
  function ChunkerToObj(row: ChunkerRow): (c: Chunker)
    ensures c.kind == row.kind && c.size == row.size
  {
    Chunker(row.kind, row.size)
  }

  function LlmModelToObj(row: LlmModelRow): LlmModel {
    LlmModel(row.modelName)
  }

  /** `ProcessorRow.ato_obj`: loads the processor's chunker row; the type is
      copied verbatim and the chunker is that row's value object. */
  function ProcessorAtoObj(row: ProcessorRow, t: Tables): (r: Result<Processor, ResolveError>)
    ensures r.Success? <==> row.chunkerId in t.chunkers
    ensures r.Failure? ==> r.error == RowMissing(ChunkerTable, row.chunkerId)
    ensures r.Success? ==>
      && r.value.kind == row.kind
      && r.value.chunker.kind == t.chunkers[row.chunkerId].kind
      && r.value.chunker.size == t.chunkers[row.chunkerId].size
  {
    if row.chunkerId in t.chunkers then Success(Processor(row.kind, ChunkerToObj(t.chunkers[row.chunkerId])))
    else Failure(RowMissing(ChunkerTable, row.chunkerId))
  }

  /** Every row a configuration row refers to exists. */
  predicate RowsPresent(row: ProjectConfigRow, t: Tables) {
    && row.downloaderId in t.downloaders
    && row.textExtractorId in t.textExtractors
    && row.embedderId in t.embedders
    && row.processorId in t.processors
    && row.llmModelId in t.llmModels
    && t.processors[row.processorId].chunkerId in t.chunkers
  }

  /** The configuration assembled from present rows, before validation. */
  function Assemble(row: ProjectConfigRow, t: Tables): Config
    requires RowsPresent(row, t)
  {
    var d := DownloaderToObj(t.downloaders[row.downloaderId]);
    var p := t.processors[row.processorId];
    Config(
      row.id,
      d,
      TextExtractorToObj(t.textExtractors[row.textExtractorId], d),
      EmbedderToObj(t.embedders[row.embedderId]),
      Processor(p.kind, ChunkerToObj(t.chunkers[p.chunkerId])),
      LlmModelToObj(t.llmModels[row.llmModelId]))
  }

  /** `ProjectConfigRow.ato_obj`: load the five rows (and the processor's
      chunker) in the source's order, build the configuration with one shared
      downloader value, then validate it. */
  function AtoObj(row: ProjectConfigRow, t: Tables): (r: Result<Config, ResolveError>)
    ensures r.Success? ==>
      && Validate(r.value).Pass?
      && SharesDownloader(r.value)
      && r.value.projectId == row.id
    ensures r.Success? <==> RowsPresent(row, t) && Validate(Assemble(row, t)).Pass?
    ensures r.Success? ==> r.value == Assemble(row, t)
    ensures r.Failure? && RowsPresent(row, t) ==> r.error == Invalid(Validate(Assemble(row, t)).error)
  {
    if row.downloaderId !in t.downloaders then Failure(RowMissing(DownloaderTable, row.downloaderId))
    else if row.textExtractorId !in t.textExtractors then Failure(RowMissing(TextExtractorTable, row.textExtractorId))
    else if row.embedderId !in t.embedders then Failure(RowMissing(EmbedderTable, row.embedderId))
    else if row.processorId !in t.processors then Failure(RowMissing(ProcessorTable, row.processorId))
    else if row.llmModelId !in t.llmModels then Failure(RowMissing(LlmModelTable, row.llmModelId))
    else
      match ProcessorAtoObj(t.processors[row.processorId], t)
      case Failure(e) => Failure(e)
      case Success(processor) =>
        var d := DownloaderToObj(t.downloaders[row.downloaderId]);
        var conf := Config(
          row.id,
          d,
          TextExtractorToObj(t.textExtractors[row.textExtractorId], d),
          EmbedderToObj(t.embedders[row.embedderId]),
          processor,
          LlmModelToObj(t.llmModels[row.llmModelId]));
        match Validate(conf)
        case Fail(e) => Failure(Invalid(e))
        case Pass => Success(conf)
  }

  /** `ato_obj` returns exactly for configuration rows that pick the Jina API
      downloader and the (Jina AI, ReaderLM-v2) extractor, with every referenced
      row present; the chunker and processor rows are copied verbatim. */
  lemma AtoObjSucceedsIff(row: ProjectConfigRow, t: Tables)
    ensures AtoObj(row, t).Success? <==>
      && RowsPresent(row, t)
      && t.downloaders[row.downloaderId].downloader == "Jina AI reader using Jina API"
      && t.textExtractors[row.textExtractorId].provider == "Jina AI"
      && t.textExtractors[row.textExtractorId].modelName == "ReaderLM-v2"
    ensures AtoObj(row, t).Success? ==>
      && AtoObj(row, t).value.processor.kind == t.processors[row.processorId].kind
      && AtoObj(row, t).value.processor.chunker
           == Chunker(t.chunkers[t.processors[row.processorId].chunkerId].kind,
                      t.chunkers[t.processors[row.processorId].chunkerId].size)
  {
    if RowsPresent(row, t) {
      ValidIff(Assemble(row, t));
    }
  }

  /** Every configuration row is filed under its own project's id. */
  predicate WellKeyed(t: Tables) {
    forall k :: k in t.projectConfigs ==> t.projectConfigs[k].projectId == k
  }

  /** `ProjectConfigRow.aget_by_project`: the row of a project, if configured. */
  function ConfigRowOfProject(t: Tables, projectId: int): (r: Option<ProjectConfigRow>)
    ensures r.Some? <==> projectId in t.projectConfigs
    ensures r.Some? ==> r.value == t.projectConfigs[projectId]
    ensures r.Some? && WellKeyed(t) ==> r.value.projectId == projectId
  {
    if projectId in t.projectConfigs then Some(t.projectConfigs[projectId]) else None
  }

  /** `ProjectConfigRow.db_id_from_ui_id`. */
  function ProjectConfigDbIdFromUiId(uiId: string): Option<int> {
    DbIdFromUiId(PROJECT_PREFIX, uiId)
  }

  /** `db_id_from_ui_id("project-" + str(n)) == n`. */
  lemma ProjectConfigUiIdRoundTrip(n: int)
    ensures ProjectConfigDbIdFromUiId("project-" + IntToString(n)) == Some(n)
  {
    UiIdRoundTrip(PROJECT_PREFIX, n);
  }

  /** `ValueError` from `int()` when the UI id does not end in a number. */
  datatype BadUiId = BadUiId(uiId: string)

  /** `ProjectConfigRow.aget_by_project_id_for_ui`: parse the UI id (a parse
      failure is raised), then look the row up (absence is `None`). */
  function ConfigRowOfProjectUiId(t: Tables, uiId: string): (r: Result<Option<ProjectConfigRow>, BadUiId>)
    ensures r.Failure? <==> ProjectConfigDbIdFromUiId(uiId).None?
    ensures r.Success? ==> r.value == ConfigRowOfProject(t, ProjectConfigDbIdFromUiId(uiId).value)
  {
    match ProjectConfigDbIdFromUiId(uiId)
    case None => Failure(BadUiId(uiId))
    case Some(id) => Success(ConfigRowOfProject(t, id))
  }
}

=== FILE: constants.dfy ===
/** The closed sets of named choices the pipeline is configured with. Each
    variant's `Name()` is the exact text stored in the database and compared
    by the dispatchers. */
module Constants {

  datatype Provider = Jina | Ollama {
    function Name(): string {
      match this
      case Jina => "Jina AI"
      case Ollama => "Ollama"
    }
  }

  const READER_LM_V2: string := "ReaderLM-v2"

  /** `JINA_AI_MODELS.reader_models()`: the models able to act as the Jina reader. */
  function ReaderModels(): seq<string> {
    [READER_LM_V2]
  }

  datatype DownloaderType = WebPageScraper | JinaAiReaderUsingJinaApi {
    function Name(): string {
      match this
      case WebPageScraper => "Web page scraper"
      case JinaAiReaderUsingJinaApi => "Jina AI reader using Jina API"
    }
  }

  datatype ResourceStatus = New | Downloaded | Scraped | Error | Processed {
    function Name(): string {
      match this
      case New => "New"
      case Downloaded => "Downloaded"
      case Scraped => "Scraped"
      case Error => "Error"
      case Processed => "Processed"
    }
  }

  datatype ChunkerType = Fixed | NoChunk {
    function Name(): string {
      match this
      case Fixed => "Fixed size"
      case NoChunk => "No chunking"
    }
  }

  datatype ProcessorType = SimpleRag {
    function Name(): string {
      match this
      case SimpleRag => "Simple RAG"
    }
  }

  /** Distinct choices are stored as distinct text, so comparing the stored
      text decides the choice; the reader-model list is the one model
      `ReaderLM-v2`; and "Simple RAG" is the only processor type. */
  lemma NamesIdentifyChoices()
    ensures forall a: Provider, b: Provider :: a != b ==> a.Name() != b.Name()
    ensures forall a: DownloaderType, b: DownloaderType :: a != b ==> a.Name() != b.Name()
    ensures forall a: ResourceStatus, b: ResourceStatus :: a != b ==> a.Name() != b.Name()
    ensures forall a: ChunkerType, b: ChunkerType :: a != b ==> a.Name() != b.Name()
    ensures forall p: ProcessorType :: p.Name() == "Simple RAG"
    ensures ReaderModels() == ["ReaderLM-v2"]
    ensures forall m :: m in ReaderModels() <==> m == "ReaderLM-v2"
  {
  }
}

=== FILE: content_utils.dfy ===
/** File names for downloaded papers (`content/utils.py`). `DIR_PATH` is
    defined outside this model and is passed in as `dirPath`. */
module ContentUtils {
  import opened Strings

  /** `make_raw_content_filename`: `{DIR_PATH}/raw_{id}.pdf`, where every `/`
      of the paper id became `_`. The id part keeps the id's length, has no
      `/`, and differs from the id only where the id had a `/`. */
  function MakeRawContentFilename(dirPath: string, paperId: string): (name: string)
    ensures |name| == |dirPath| + |paperId| + 9
    ensures name[..|dirPath| + 5] == dirPath + "/raw_"
    ensures name[|name| - 4..] == ".pdf"
    ensures '/' !in name[|dirPath| + 5..|name| - 4]
    ensures forall i :: 0 <= i < |paperId| ==>
      name[|dirPath| + 5 + i] == (if paperId[i] == '/' then '_' else paperId[i])
  {
    var safeId := ReplaceChar(paperId, '/', '_');
    ReplaceCharRemovesTarget(paperId, '/', '_');
    var name := dirPath + "/raw_" + safeId + ".pdf";
    assert name[|dirPath| + 5..|name| - 4] == safeId;
    assert forall i :: 0 <= i < |paperId| ==> name[|dirPath| + 5 + i] == safeId[i];
    name
  }

  /** `make_clean_content_filename`: `{DIR_PATH}/scraped_{raw}.txt`, with the
      given name embedded whole. */
  function MakeCleanContentFilename(dirPath: string, rawContentFilename: string): (name: string)
    ensures |name| == |dirPath| + |rawContentFilename| + 13
    ensures name[..|dirPath| + 9] == dirPath + "/scraped_"
    ensures name[|dirPath| + 9..|name| - 4] == rawContentFilename
    ensures name[|name| - 4..] == ".txt"
  {
    dirPath + "/scraped_" + rawContentFilename + ".txt"
  }
}

=== FILE: extract_text_dispatcher.dfy ===
/** Choice of the text-extraction job from the configured provider
    (`extract_text/job_dispatcher.py`). */
module ExtractTextDispatcher {
  import opened Wrappers
  import opened Strings
  import opened Constants
  import opened Configuration
  import opened Jobs

  /** `supported_extractors`: the providers this stage can dispatch. */
  const SUPPORTED_EXTRACTORS: seq<string> := [Jina.Name()]

  /** `dispatcher`: the Jina AI provider maps to the Jina reader job; any other
      provider raises, naming itself and the supported list. Only the text
      extractor's provider is consulted. */
  function Dispatcher(c: Config): (r: Result<Job, DispatchError>)
    ensures r.Success? <==> c.textExtractor.provider == "Jina AI"
    ensures r.Success? ==> r.value == ScrapeWebPageUsingRequests
    ensures r.Failure? ==> r.error == UnknownTextExtractor(c.textExtractor.provider, ["Jina AI"])
  {
    var provider := c.textExtractor.provider;
    if provider == Jina.Name() then Success(ScrapeWebPageUsingRequests)
    else Failure(UnknownTextExtractor(provider, SUPPORTED_EXTRACTORS))
  }

  /** Two configurations with the same extractor provider dispatch alike. */
  lemma DispatcherReadsOnlyProvider(c1: Config, c2: Config)
    requires c1.textExtractor.provider == c2.textExtractor.provider
    ensures Dispatcher(c1) == Dispatcher(c2)
  {
  }

  /** The items of Python's `repr` of a list of strings (no quote escaping). */
  function QuotedItems(items: seq<string>): string
    decreases |items|
  {
    if items == [] then ""
    else if |items| == 1 then "'" + items[0] + "'"
    else "'" + items[0] + "', " + QuotedItems(items[1..])
  }

  /** Every item of the list appears in its repr, between quotes. */
  lemma {:induction false} QuotedItemsContainEach(items: seq<string>, i: nat)
    requires i < |items|
    ensures Contains(QuotedItems(items), "'" + items[i] + "'")
    decreases |items|
  {
    var quoted := "'" + items[i] + "'";
    if |items| == 1 {
      ContainsConcatMiddle("", quoted, "");
      assert "" + quoted + "" == QuotedItems(items);
    } else if i == 0 {
      ContainsConcatMiddle("", quoted, ", " + QuotedItems(items[1..]));
      assert "" + quoted + (", " + QuotedItems(items[1..])) == QuotedItems(items);
    } else {
      QuotedItemsContainEach(items[1..], i - 1);
      ContainsWithin("'" + items[0] + "', ", QuotedItems(items[1..]), "", quoted);
      assert "'" + items[0] + "', " + QuotedItems(items[1..]) + "" == QuotedItems(items);
    }
  }

  /** The text of the exception raised for an unknown provider. */
  function UnknownTextExtractorMessage(provider: string, supported: seq<string>): string {
    "Unknown text extractor: [red]" + provider + "[/]\nSupported providers: [" + QuotedItems(supported) + "]"
  }

  /** The message names the offending provider and every supported one, quoted. */
  lemma MessageNamesProviderAndSupported(provider: string, supported: seq<string>)
    ensures Contains(UnknownTextExtractorMessage(provider, supported), provider)
    ensures forall i :: 0 <= i < |supported| ==>
      Contains(UnknownTextExtractorMessage(provider, supported), "'" + supported[i] + "'")
  {
    var head := "Unknown text extractor: [red]";
    var tail := "[/]\nSupported providers: [" + QuotedItems(supported) + "]";
    ContainsConcatMiddle(head, provider, tail);
    assert UnknownTextExtractorMessage(provider, supported) == head + provider + tail;
    forall i | 0 <= i < |supported|
      ensures Contains(UnknownTextExtractorMessage(provider, supported), "'" + supported[i] + "'")
    {
      QuotedItemsContainEach(supported, i);
      ContainsWithin(head + provider + "[/]\nSupported providers: [", QuotedItems(supported), "]", "'" + supported[i] + "'");
      assert head + provider + "[/]\nSupported providers: [" + QuotedItems(supported) + "]"
          == UnknownTextExtractorMessage(provider, supported);
    }
  }
}

=== FILE: identifiers.dfy ===
/** The user-facing identifiers the TUI shows in place of database ids:
    `"project-" + str(id)` and `"conversation-" + str(id)`, read back with
    `int(ui_id.split(prefix)[-1])`. */
module Identifiers {
  import opened Wrappers
  import opened Strings

  const PROJECT_PREFIX: string := "project-"
  const CONVERSATION_PREFIX: string := "conversation-"

  /** `f"{prefix}{id}"`. */
  function MakeUiId(prefix: string, id: int): string {
    prefix + IntToString(id)
  }

  /** `int(ui_id.split(prefix)[-1])`; `None` is the `ValueError` of `int`. */
  function DbIdFromUiId(prefix: string, uiId: string): Option<int>
    requires |prefix| > 0
  {
    ParseInt(AfterLast(uiId, prefix))
  }

  /** Reading back an id made with the same prefix gives the id again, for
      every prefix that does not start like a number. */
  lemma UiIdRoundTrip(prefix: string, id: int)
    requires |prefix| > 0 && !IsDigit(prefix[0]) && prefix[0] != '-'
    ensures DbIdFromUiId(prefix, MakeUiId(prefix, id)) == Some(id)
  {
    var digits := IntToString(id);
    var s := MakeUiId(prefix, id);
    assert s[..|prefix|] == prefix;
    assert s[|prefix|..] == digits;
    IntToStringAlphabet(id, prefix[0]);
    MissingCharNotContained(digits, prefix, prefix[0]);
    SplitWithoutSeparator(digits, prefix);
    assert Split(s, prefix) == [""] + Split(digits, prefix);
    ParseIntOfIntToString(id);
  }

  /** A project's UI id is not a conversation UI id: reading it with the
      conversation prefix fails with `ValueError`. */
  lemma ProjectUiIdIsNotConversationUiId(id: int)
    ensures DbIdFromUiId(CONVERSATION_PREFIX, MakeUiId(PROJECT_PREFIX, id)) == None
  {
    var s := MakeUiId(PROJECT_PREFIX, id);
    IntToStringAlphabet(id, 'v');
    assert 'v' !in PROJECT_PREFIX;
    assert 'v' !in s;
    assert 'v' in CONVERSATION_PREFIX;
    MissingCharNotContained(s, CONVERSATION_PREFIX, 'v');
    SplitWithoutSeparator(s, CONVERSATION_PREFIX);
    assert AfterLast(s, CONVERSATION_PREFIX) == s;
    assert s[0] == 'p';
  }
}

=== FILE: jina_ai_api.dfy ===
/** The text-extraction job `scrape_web_page_using_requests` as it runs: the
    body of its `try`/`except` and the unconditional `return` after it. The
    HTTP call that follows that `return` is never reached. */
module JinaAiApi {
  import opened Wrappers
  import opened Constants
  import opened Models

  /** What loading the conversation's configuration gives: no row (the
      `assert` fails), a row whose `to_obj()` returns, or one whose `to_obj()`
      raises. The configuration lookup itself is not part of this model. */
  datatype ConfigLookup = NoConfigRow | ConfigLoaded | ConfigLoadRaised

  /** The exception that leaves the job: for a missing resource the `except`
      clause itself dereferences `None`. */
  datatype Escaped = ResourceMissing(resourceId: int)

  /** The database after the job, and the statuses it saved, in order. */
  datatype Run = Run(store: Store, saved: seq<ResourceStatus>)

  /** `scrape_web_page_using_requests(resource_id)`. `configOf` answers the
      configuration lookup for a conversation UI id; `trace` is the text of
      `traceback.format_exc()` for the failure the `except` clause catches.
      Reading `resource.conversation` for a conversation that does not exist
      raises `DoesNotExist`, which that clause catches too. Only the one
      resource row is written. */
  function ScrapeWebPage(s: Store, resourceId: int, configOf: string -> ConfigLookup, trace: string): (r: Result<Run, Escaped>)
    ensures r.Failure? <==> resourceId !in s.resources
    ensures r.Failure? ==> r.error == ResourceMissing(resourceId)
    ensures r.Success? ==> r.value.store.resources.Keys == s.resources.Keys
    ensures r.Success? ==> r.value.store.(resources := s.resources) == s
    ensures r.Success? ==>
      var before := s.resources[resourceId];
      var after := r.value.store.resources[resourceId];
      var loaded := before.conversationId in s.conversations
                    && configOf(ConversationUiId(before.conversationId)) == ConfigLoaded;
      && r.value.store.log == s.log
      && (forall other :: other in s.resources && other != resourceId ==>
            r.value.store.resources[other] == s.resources[other])
      && SameIdentity(before, after)
      && after.scrapedContent == before.scrapedContent
      && (loaded ==>
            after.status == Scraped && after.errorMsg == before.errorMsg && r.value.saved == [Downloaded, Scraped])
      && (!loaded ==>
            after.status == Error && after.errorMsg == Some(trace) && r.value.saved == [Downloaded, Scraped, Error])
    ensures r.Success? && Valid(s) ==> Valid(r.value.store)
  {
    match GetById(s, resourceId)
    case None => Failure(ResourceMissing(resourceId))
    case Some(resource) =>
      var downloaded := SetDownloadFinished(resource);
      var s1 := Save(s, resourceId, downloaded);
      var scraped := SetScrapingFinished(downloaded);
      var s2 := Save(s1, resourceId, scraped);
      if resource.conversationId in s.conversations
         && configOf(ConversationUiId(resource.conversationId)) == ConfigLoaded then
        Success(Run(s2, [Downloaded, Scraped]))
      else
        Success(Run(Save(s2, resourceId, AddError(scraped, trace)), [Downloaded, Scraped, Error]))
  }
}

=== FILE: job_dispatcher.dfy ===
/** The pipeline planner (`common/jobs/job_dispatcher.py`): per-stage job
    selection from the configuration, and the chain of steps built from it.
    The job runtime only receives the chain; it is modelled as the sequence of
    steps, each a sequence of job calls. */
module JobDispatcher {
  import opened Wrappers
  import opened Constants
  import opened Configuration
  import opened Jobs
  import ExtractTextDispatcher
  import RagSimple

  /** `Event.RESOURCE_CREATED`, the only event the planner accepts. */
  const RESOURCE_CREATED: string := "resource_created"

  /** One `add_job(job, project_id, resource_id)` on a step. The job is `None`
      when the text-extractor stage selected nothing. */
  datatype JobCall<P, R> = JobCall(job: Option<Job>, projectId: P, resourceId: R)

  /** `Planner.download_job`: nothing to schedule for the Jina API downloader,
      an exception for every other one. */
  function DownloadJob(c: Config): (r: Result<Option<Job>, DispatchError>)
    ensures r.Success? <==> c.downloader.kind == "Jina AI reader using Jina API"
    ensures r.Success? ==> r.value.None?
    ensures r.Failure? ==> r.error == UnknownDownloader(c.downloader)
  {
    if c.downloader.kind == DownloaderType.JinaAiReaderUsingJinaApi.Name() then Success(None)
    else Failure(UnknownDownloader(c.downloader))
  }

  /** `Planner.text_extractor_job`: the extract-text dispatcher's job for the
      Jina AI provider, and `None` (not an exception) for any other. */
  function TextExtractorJob(c: Config): (j: Option<Job>)
    ensures j.Some? <==> c.textExtractor.provider == "Jina AI"
    ensures j.Some? ==> ExtractTextDispatcher.Dispatcher(c) == Success(j.value)
  {
    if c.textExtractor.provider == Provider.Jina.Name() then
      match ExtractTextDispatcher.Dispatcher(c)
      case Success(job) => Some(job)
      case Failure(_) => assert false; None
    else
      None
  }

  /** What the `rag_step_jobs` generator produces when drained: the groups it
      yields, then the exception it raises, if any. */
  datatype Generated = Generated(groups: seq<seq<Job>>, raised: Option<DispatchError>)

  /** `Planner.rag_step_jobs`: one group (the RAG dispatcher's jobs) for a
      Simple RAG processor with the no-chunking chunker; otherwise an
      exception naming the chunker or the processor, before any yield. */
  function RagStepJobs(c: Config): (g: Generated)
    ensures g.raised.None? <==> c.processor.kind == "Simple RAG" && c.processor.chunker.kind == "No chunking"
    ensures g.raised.None? ==> g.groups == [RagSimple.RagDispatcher(c)]
    ensures g.raised.Some? ==> g.groups == []
    ensures c.processor.kind != "Simple RAG" ==> g.raised == Some(UnknownProcessor(c.processor))
    ensures c.processor.kind == "Simple RAG" && c.processor.chunker.kind != "No chunking" ==>
      g.raised == Some(UnknownChunker(c.processor.chunker))
  {
    if c.processor.kind == ProcessorType.SimpleRag.Name() then
      if c.processor.chunker.kind == ChunkerType.NoChunk.Name() then
        Generated([RagSimple.RagDispatcher(c)], None)
      else
        Generated([], Some(UnknownChunker(c.processor.chunker)))
    else
      Generated([], Some(UnknownProcessor(c.processor)))
  }

  /** The calls that put every job of a group on one step with the same arguments. */
  predicate StepRuns<P(==), R(==)>(step: seq<JobCall<P, R>>, group: seq<Job>, projectId: P, resourceId: R) {
    && |step| == |group|
    && forall i :: 0 <= i < |step| ==> step[i] == JobCall(Some(group[i]), projectId, resourceId)
  }

  /** `create_resource_processing_pipeline(event, config, project_id, resource_id)`.
      Returns the chain of steps as it stands when planning ends, and the
      exception that ended it, if any. A wrong event or downloader raises before
      any step exists; otherwise the first step holds the text-extraction job,
      and each group the RAG generator yields becomes the next step. The
      generator is consumed lazily, so its exception is raised after the first
      step was already created. */
  method CreateResourceProcessingPipeline<P(==), R(==)>(event: string, config: Config, projectId: P, resourceId: R)
    returns (steps: seq<seq<JobCall<P, R>>>, raised: Option<DispatchError>)
    ensures event != "resource_created" ==> steps == [] && raised == Some(UnknownEvent)
    ensures event == "resource_created" && DownloadJob(config).Failure? ==>
      steps == [] && raised == Some(UnknownDownloader(config.downloader))
    ensures event == "resource_created" && DownloadJob(config).Success? ==>
      && |steps| == 1 + |RagStepJobs(config).groups|
      && steps[0] == [JobCall(TextExtractorJob(config), projectId, resourceId)]
      && (forall k :: 0 <= k < |RagStepJobs(config).groups| ==>
            StepRuns(steps[k + 1], RagStepJobs(config).groups[k], projectId, resourceId))
      && raised == RagStepJobs(config).raised
    ensures forall k, i :: 0 <= k < |steps| && 0 <= i < |steps[k]| ==>
      steps[k][i].projectId == projectId && steps[k][i].resourceId == resourceId
    ensures raised.None? <==>
      && event == "resource_created"
      && config.downloader.kind == "Jina AI reader using Jina API"
      && config.processor.kind == "Simple RAG"
      && config.processor.chunker.kind == "No chunking"
    ensures raised.None? ==> |steps| == 2 && StepRuns(steps[1], [DummyRag], projectId, resourceId)
  {
    if event != RESOURCE_CREATED {
      return [], Some(UnknownEvent);
    }
    var download := DownloadJob(config);
    if download.Failure? {
      return [], Some(download.error);
    }
    assert download.value.None?;

    steps := [[JobCall(TextExtractorJob(config), projectId, resourceId)]];
    var generated := RagStepJobs(config);
    var groups := generated.groups;
    var k := 0;
    while k < |groups|
      invariant 0 <= k <= |groups|
      invariant |steps| == 1 + k
      invariant steps[0] == [JobCall(TextExtractorJob(config), projectId, resourceId)]
      invariant forall m :: 0 <= m < k ==> StepRuns(steps[m + 1], groups[m], projectId, resourceId)
    {
      var next: seq<JobCall<P, R>> := [];
      var i := 0;
      while i < |groups[k]|
        invariant 0 <= i <= |groups[k]|
        invariant StepRuns(next, groups[k][..i], projectId, resourceId)
      {
        next := next + [JobCall(Some(groups[k][i]), projectId, resourceId)];
        i := i + 1;
      }
      assert groups[k][..i] == groups[k];
      steps := steps + [next];
      k := k + 1;
    }
    raised := generated.raised;
    forall m, i | 0 <= m < |steps| && 0 <= i < |steps[m]|
      ensures steps[m][i].projectId == projectId && steps[m][i].resourceId == resourceId
    {
      if m > 0 {
        assert StepRuns(steps[m], groups[m - 1], projectId, resourceId);
      }
    }
    if raised.None? {
      assert groups == [[DummyRag]];
      assert StepRuns(steps[1], groups[0], projectId, resourceId);
    }
  }

  /** A configuration that passed `Config.validate` (with its extractor built
      on its own downloader) always gets past the download and text-extraction
      stages: the planner can then fail only on the chunker or processor. */
  lemma ValidConfigReachesRagStage(c: Config)
    requires SharesDownloader(c) && Validate(c).Pass?
    ensures DownloadJob(c) == Success(None)
    ensures TextExtractorJob(c) == Some(ScrapeWebPageUsingRequests)
  {
    ValidIff(c);
  }
}

=== FILE: jobs.dfy ===
/** The work units the pipeline schedules, and the exceptions raised while
    choosing them. */
module Jobs {
  import opened Configuration

  /** The registered jobs (`@job(name=..., timeout=...)`). */
  datatype Job = ScrapeWebPageUsingRequests | DummyRag {
    function Name(): string {
      match this
      case ScrapeWebPageUsingRequests => "scrape_web_page_using_requests"
      case DummyRag => "dummy rag"
    }
  }

  /** The exceptions raised at planning time, with what they name. */
  datatype DispatchError =
    | UnknownEvent
    | UnknownDownloader(downloader: Downloader)
    | UnknownTextExtractor(provider: string, supported: seq<string>)
    | UnknownChunker(chunker: Chunker)
    | UnknownProcessor(processor: Processor)
}

=== FILE: models.dfy ===
/** The persistent records of the core: conversations (projects), resources
    with their status, and the append-only event log. The database is a
    `Store` value; every write is a function from store to store. */
module Models {
  import opened Wrappers
  import opened Constants
  import opened Identifiers

  /** The event types written by the core. Only these four names are used;
      their stored text is not part of this model. */
  datatype EventType =
    | ConversationCreated
    | ResourceAdded
    | ResourceProcessingEncounteredError
    | ResourceProcessed

  /** A `ResourceRow`. `conversationId` is the owning conversation (project). */
  datatype Resource = Resource(
    conversationId: int,
    url: string,
    status: ResourceStatus,
    scrapedContent: Option<string>,
    errorMsg: Option<string>,
    parent: Option<int>)

  /** An `EventLogRows` row; `stamp` is its creation (and update) time. */
  datatype LogEntry = LogEntry(conversationId: int, eventType: EventType, entityId: int, stamp: int)

  /** The database: conversation ids, resource rows by id, the event log in
      insertion order, and the clock that stamps new log rows. The clock is a
      counter that moves forward with every write, standing in for the wall
      clock behind `auto_now`. */
  datatype Store = Store(
    conversations: set<int>,
    nextConversationId: int,
    resources: map<int, Resource>,
    nextResourceId: int,
    log: seq<LogEntry>,
    clock: int)

  predicate StampsIncrease(log: seq<LogEntry>) {
    forall i, j :: 0 <= i < j < |log| ==> log[i].stamp < log[j].stamp
  }

  /** Database integrity: ids below their counters, every resource's and
      every log entry's conversation exists (both are foreign keys), log
      stamps strictly increase and precede the clock. */
  predicate Valid(s: Store) {
    && (forall c :: c in s.conversations ==> c < s.nextConversationId)
    && (forall id :: id in s.resources ==> id < s.nextResourceId && s.resources[id].conversationId in s.conversations)
    && (forall i :: 0 <= i < |s.log| ==> s.log[i].conversationId in s.conversations)
    && StampsIncrease(s.log)
    && (forall i :: 0 <= i < |s.log| ==> s.log[i].stamp < s.clock)
  }

  // ---------------------------------------------------------------------------
  // Resource transitions. None of them looks at the prior status.
  // ---------------------------------------------------------------------------

  /** Every field but `status`, `scrapedContent` and `errorMsg` agrees. */
  predicate SameIdentity(r: Resource, r': Resource) {
    r'.conversationId == r.conversationId && r'.url == r.url && r'.parent == r.parent
  }

  /** A freshly created row: status `New`, no content, no error. */
  function NewResource(conversationId: int, url: string, parent: Option<int>): (r: Resource)
    ensures r.status == New && r.scrapedContent.None? && r.errorMsg.None?
    ensures r.conversationId == conversationId && r.url == url && r.parent == parent
  {
    Resource(conversationId, url, New, None, None, parent)
  }

  /** `set_download_finishied`: status becomes `Downloaded`; nothing else changes. */
  function SetDownloadFinished(r: Resource): (r': Resource)
    ensures r'.status == Downloaded
    ensures SameIdentity(r, r') && r'.scrapedContent == r.scrapedContent && r'.errorMsg == r.errorMsg
  {
    r.(status := Downloaded)
  }

  /** `set_scraping_finished`: status becomes `Scraped`; nothing else changes. */
  function SetScrapingFinished(r: Resource): (r': Resource)
    ensures r'.status == Scraped
    ensures SameIdentity(r, r') && r'.scrapedContent == r.scrapedContent && r'.errorMsg == r.errorMsg
  {
    r.(status := Scraped)
  }

  /** `set_processed`: status becomes `Processed`; nothing else changes. */
  function SetProcessed(r: Resource): (r': Resource)
    ensures r'.status == Processed
    ensures SameIdentity(r, r') && r'.scrapedContent == r.scrapedContent && r'.errorMsg == r.errorMsg
  {
    r.(status := Processed)
  }

  /** `add_error`: status becomes `Error` and the message is stored verbatim;
      the scraped content is kept. */
  function AddError(r: Resource, message: string): (r': Resource)
    ensures r'.status == Error && r'.errorMsg == Some(message)
    ensures SameIdentity(r, r') && r'.scrapedContent == r.scrapedContent
  {
    r.(status := Error, errorMsg := Some(message))
  }

  /** `add_scraped_content`: stores the content; the status is not touched. */
  function AddScrapedContent(r: Resource, content: string): (r': Resource)
    ensures r'.scrapedContent == Some(content)
    ensures SameIdentity(r, r') && r'.status == r.status && r'.errorMsg == r.errorMsg
  {
    r.(scrapedContent := Some(content))
  }

  /** The setters are unconditional: the result does not depend on the prior
      status, so every status (Processed and Error included) can be left for
      every other one, and setting the same status twice changes nothing more. */
  lemma TransitionsIgnorePriorStatus(r: Resource, prior: ResourceStatus, message: string)
    ensures SetDownloadFinished(r.(status := prior)) == SetDownloadFinished(r)
    ensures SetScrapingFinished(r.(status := prior)) == SetScrapingFinished(r)
    ensures SetProcessed(r.(status := prior)) == SetProcessed(r)
    ensures AddError(r.(status := prior), message) == AddError(r, message)
    ensures SetProcessed(SetProcessed(r)) == SetProcessed(r)
    ensures AddError(AddError(r, message), message) == AddError(r, message)
  {
  }

  // ---------------------------------------------------------------------------
  // Store operations
  // ---------------------------------------------------------------------------

  /** `ResourceRow.get_by_id`: a missing id gives `None`, never an exception. */
  function GetById(s: Store, id: int): (r: Option<Resource>)
    ensures r.Some? <==> id in s.resources
    ensures r.Some? ==> r.value == s.resources[id]
  {
    if id in s.resources then Some(s.resources[id]) else None
  }

  /** `save()` of a loaded row: overwrites that row and nothing else. */
  function Save(s: Store, id: int, r: Resource): (s': Store)
    requires id in s.resources
    ensures s'.resources.Keys == s.resources.Keys && s'.resources[id] == r
    ensures forall other :: other in s.resources && other != id ==> s'.resources[other] == s.resources[other]
    ensures s'.log == s.log && s'.conversations == s.conversations && s'.clock == s.clock
    ensures Valid(s) && r.conversationId == s.resources[id].conversationId ==> Valid(s')
  {
    s.(resources := s.resources[id := r])
  }

  /** Inserting a log row whose conversation exists: exactly one entry is
      appended, stamped with the clock, which then moves on; nothing else
      changes. */
  function AppendEvent(s: Store, conversationId: int, eventType: EventType, entityId: int): (s': Store)
    ensures s'.log == s.log + [LogEntry(conversationId, eventType, entityId, s.clock)]
    ensures s'.resources == s.resources && s'.conversations == s.conversations
    ensures s'.nextResourceId == s.nextResourceId && s'.nextConversationId == s.nextConversationId
    ensures s'.clock == s.clock + 1
    ensures Valid(s) && conversationId in s.conversations ==> Valid(s')
  {
    s.(log := s.log + [LogEntry(conversationId, eventType, entityId, s.clock)], clock := s.clock + 1)
  }

  /** The `IntegrityError` of inserting a row whose conversation does not exist. */
  datatype IntegrityError = MissingConversation(conversationId: int)

  /** `EventLogRows.create`: the log row's conversation is a foreign key, so an
      id naming no conversation raises and writes nothing; otherwise exactly
      one entry is appended. */
  function CreateEvent(s: Store, conversationId: int, eventType: EventType, entityId: int): (r: Result<Store, IntegrityError>)
    ensures r.Failure? <==> conversationId !in s.conversations
    ensures r.Failure? ==> r.error == MissingConversation(conversationId)
    ensures r.Success? ==>
      && r.value.log == s.log + [LogEntry(conversationId, eventType, entityId, s.clock)]
      && r.value.resources == s.resources && r.value.conversations == s.conversations
      && r.value.nextResourceId == s.nextResourceId && r.value.nextConversationId == s.nextConversationId
      && r.value.clock == s.clock + 1
    ensures r.Success? && Valid(s) ==> Valid(r.value)
  {
    if conversationId in s.conversations then Success(AppendEvent(s, conversationId, eventType, entityId))
    else Failure(MissingConversation(conversationId))
  }

  /** `ConversationRow.id_for_ui`. */
  function ConversationUiId(id: int): string {
    MakeUiId(CONVERSATION_PREFIX, id)
  }

  /** `ConversationRow.db_id_from_ui_id`; `None` is the `ValueError` of `int()`. */
  function ConversationDbIdFromUiId(uiId: string): Option<int> {
    DbIdFromUiId(CONVERSATION_PREFIX, uiId)
  }

  /** `db_id_from_ui_id(id_for_ui) == id`. */
  lemma ConversationUiIdRoundTrip(id: int)
    ensures ConversationDbIdFromUiId(ConversationUiId(id)) == Some(id)
  {
    UiIdRoundTrip(CONVERSATION_PREFIX, id);
  }

  /** `ConversationRow.acreate`: a new conversation and exactly one
      `CONVERSATION_CREATED` entry naming it. */
  function CreateConversation(s: Store): (res: (Store, int))
    ensures var (s', id) := res;
      && Valid(s) ==> Valid(s') && id !in s.conversations
    ensures var (s', id) := res;
      && s'.conversations == s.conversations + {id}
      && s'.resources == s.resources
      && s'.log == s.log + [LogEntry(id, ConversationCreated, id, s.clock)]
  {
    var id := s.nextConversationId;
    var s1 := s.(conversations := s.conversations + {id}, nextConversationId := id + 1);
    (AppendEvent(s1, id, ConversationCreated, id), id)
  }

  /** Why `ResourceRow.acreate` can raise: the UI id is not a number
      (`ValueError`) or names no conversation (`IntegrityError`). */
  datatype CreateError = BadConversationUiId(uiId: string) | NoSuchConversation(id: int)

  /** `ResourceRow.acreate`: a new `New` resource under the conversation and
      exactly one `RESOURCE_ADDED` entry whose entity is the new id. */
  function CreateResource(s: Store, conversationUiId: string, url: string): (r: Result<(Store, int), CreateError>)
    ensures r.Success? <==>
      ConversationDbIdFromUiId(conversationUiId).Some? &&
      ConversationDbIdFromUiId(conversationUiId).value in s.conversations
    ensures r.Success? ==>
      var (s', id) := r.value;
      var conversation := ConversationDbIdFromUiId(conversationUiId).value;
      && (Valid(s) ==> id !in s.resources)
      && s'.resources == s.resources[id := NewResource(conversation, url, None)]
      && s'.log == s.log + [LogEntry(conversation, ResourceAdded, id, s.clock)]
      && s'.conversations == s.conversations
    ensures r.Success? && Valid(s) ==> Valid(r.value.0)
  {
    match ConversationDbIdFromUiId(conversationUiId)
    case None => Failure(BadConversationUiId(conversationUiId))
    case Some(conversation) =>
      if conversation !in s.conversations then Failure(NoSuchConversation(conversation))
      else
        var id := s.nextResourceId;
        var s1 := s.(resources := s.resources[id := NewResource(conversation, url, None)], nextResourceId := id + 1);
        Success((AppendEvent(s1, conversation, ResourceAdded, id), id))
  }

  // ---------------------------------------------------------------------------
  // Reading the event log
  // ---------------------------------------------------------------------------

  /** `sub` is `s` with some elements left out and the rest kept in order. */
  predicate SubsequenceOf<T(==)>(sub: seq<T>, s: seq<T>)
    decreases |s|
  {
    if sub == [] then true
    else if s == [] then false
    else if sub[0] == s[0] then SubsequenceOf(sub[1..], s[1..])
    else SubsequenceOf(sub, s[1..])
  }

  /** The entries of one conversation, in log order: a subsequence of the log
      holding each of that conversation's entries as often as the log does,
      and nothing else. */
  function EntriesOf(log: seq<LogEntry>, conversationId: int): (r: seq<LogEntry>)
    ensures forall e :: e in r <==> e in log && e.conversationId == conversationId
    ensures forall e :: multiset(r)[e] == if e.conversationId == conversationId then multiset(log)[e] else 0
    ensures SubsequenceOf(r, log)
    ensures |r| <= |log|
    decreases |log|
  {
    if log == [] then []
    else
      var rest := EntriesOf(log[1..], conversationId);
      assert log == [log[0]] + log[1..];
      assert multiset(log) == multiset([log[0]]) + multiset(log[1..]);
      assert forall e :: e in log <==> e == log[0] || e in log[1..];
      if log[0].conversationId == conversationId then
        var r := [log[0]] + rest;
        assert r[1..] == rest;
        assert multiset(r) == multiset([log[0]]) + multiset(rest);
        r
      else
        assert rest != [] ==> rest[0] != log[0] by {
          if rest != [] {
            assert rest[0] in rest;
          }
        }
        rest
  }

  /** Filtering keeps the log's order: the entries of one conversation have
      increasing stamps when the whole log does. */
  lemma {:induction false} EntriesOfIncreasing(log: seq<LogEntry>, conversationId: int)
    requires StampsIncrease(log)
    ensures StampsIncrease(EntriesOf(log, conversationId))
    decreases |log|
  {
    if log != [] {
      var rest := EntriesOf(log[1..], conversationId);
      EntriesOfIncreasing(log[1..], conversationId);
      forall j | 0 <= j < |rest|
        ensures log[0].stamp < rest[j].stamp
      {
        assert rest[j] in log[1..];
        var k :| 0 <= k < |log[1..]| && log[1..][k] == rest[j];
        assert log[k + 1] == rest[j];
      }
    }
  }

  /** Why `aget_logs_for_conversation` raises: `ValueError` from `int()` on the
      UI id, or the explicit "Unknown conversation" error. */
  datatype LogQueryError = UnparsableConversationUiId(uiId: string) | UnknownConversation(uiId: string)

  /** `EventLogRows.aget_logs_for_conversation`: raises for an unknown
      conversation, otherwise returns that conversation's entries ordered by
      their time stamp. */
  function LogsForConversation(s: Store, conversationUiId: string): (r: Result<seq<LogEntry>, LogQueryError>)
    ensures r.Success? <==>
      ConversationDbIdFromUiId(conversationUiId).Some? &&
      ConversationDbIdFromUiId(conversationUiId).value in s.conversations
    ensures r.Failure? && ConversationDbIdFromUiId(conversationUiId).Some? ==>
      r.error == UnknownConversation(conversationUiId)
    ensures r.Success? ==>
      forall e :: e in r.value <==> e in s.log && e.conversationId == ConversationDbIdFromUiId(conversationUiId).value
    ensures r.Success? && Valid(s) ==> StampsIncrease(r.value)
  {
    match ConversationDbIdFromUiId(conversationUiId)
    case None => Failure(UnparsableConversationUiId(conversationUiId))
    case Some(id) =>
      if id !in s.conversations then Failure(UnknownConversation(conversationUiId))
      else
        var entries := EntriesOf(s.log, id);
        assert Valid(s) ==> StampsIncrease(entries) by {
          if Valid(s) {
            EntriesOfIncreasing(s.log, id);
          }
        }
        Success(entries)
  }
}

=== FILE: project_manager.dfy ===
/** The project view the TUI keeps (`common/project_manager.py`): a project's
    identifiers, the `(url, status)` of each of its resources, and its
    configuration. A project is stored as a conversation row. */
module ProjectManager {
  import opened Wrappers
  import opened Constants
  import Identifiers
  import opened Configuration
  import Models

  /** `common.models.Resource`: what a project shows of one resource. */
  datatype ResourceSummary = ResourceSummary(url: string, status: ResourceStatus)

  /** `config`: `{}` when the project has no configuration row, otherwise the
      dictionary `ato_dict` builds from that row. */
  datatype ProjectConfigView = EmptyConfig | ConfigOf(row: ProjectConfigRow)

  datatype Project = Project(idInDb: int, idForUi: string, resources: seq<ResourceSummary>, config: ProjectConfigView)

  /** `Project.make_id_for_ui`. */
  function MakeIdForUi(dbId: int): string {
    Identifiers.MakeUiId(Identifiers.PROJECT_PREFIX, dbId)
  }

  /** `Project.db_id_from_ui_id`; `None` is the `ValueError` of `int`. */
  function DbIdFromUiId(uiId: string): Option<int> {
    Identifiers.DbIdFromUiId(Identifiers.PROJECT_PREFIX, uiId)
  }

  /** Reading back a project's UI id gives its database id. */
  lemma ProjectUiIdRoundTrip(n: int)
    ensures DbIdFromUiId(MakeIdForUi(n)) == Some(n)
  {
    Identifiers.UiIdRoundTrip(Identifiers.PROJECT_PREFIX, n);
  }

  /** `Project.acreate_from_db_row`. `rows` are the project's resource rows in
      the order the query yields them; the query itself is not part of this
      model. */
  method AcreateFromDbRow(projectId: int, rows: seq<Models.Resource>, t: Tables) returns (p: Project)
    ensures p.idInDb == projectId && p.idForUi == MakeIdForUi(projectId)
    ensures |p.resources| == |rows|
    ensures forall i :: 0 <= i < |rows| ==> p.resources[i] == ResourceSummary(rows[i].url, rows[i].status)
    ensures p.config.EmptyConfig? <==> projectId !in t.projectConfigs
    ensures p.config.ConfigOf? ==> ConfigRowOfProject(t, projectId) == Some(p.config.row)
  {
    var resources: seq<ResourceSummary> := [];
    var i := 0;
    while i < |rows|
      invariant 0 <= i <= |rows|
      invariant |resources| == i
      invariant forall j :: 0 <= j < i ==> resources[j] == ResourceSummary(rows[j].url, rows[j].status)
    {
      resources := resources + [ResourceSummary(rows[i].url, rows[i].status)];
      i := i + 1;
    }
    var config := match ConfigRowOfProject(t, projectId)
      case Some(row) => ConfigOf(row)
      case None => EmptyConfig;
    p := Project(projectId, MakeIdForUi(projectId), resources, config);
  }

  /** The `AssertionError` of `assert project_row`. */
  datatype AppStateError = ProjectMissing(projectId: int)

  /** `ProjectManager.aset_app_state`: the project must exist; the active
      project then becomes its view. */
  method SetAppState(s: Models.Store, projectId: int, rows: seq<Models.Resource>, t: Tables)
    returns (r: Result<Project, AppStateError>)
    ensures r.Failure? <==> projectId !in s.conversations
    ensures r.Failure? ==> r.error == ProjectMissing(projectId)
    ensures r.Success? ==>
      && r.value.idInDb == projectId
      && r.value.idForUi == MakeIdForUi(projectId)
      && |r.value.resources| == |rows|
      && (forall i :: 0 <= i < |rows| ==> r.value.resources[i] == ResourceSummary(rows[i].url, rows[i].status))
      && (r.value.config.EmptyConfig? <==> projectId !in t.projectConfigs)
      && (r.value.config.ConfigOf? ==> ConfigRowOfProject(t, projectId) == Some(r.value.config.row))
  {
    if projectId !in s.conversations {
      return Failure(ProjectMissing(projectId));
    }
    var p := AcreateFromDbRow(projectId, rows, t);
    r := Success(p);
  }
}

=== FILE: project_widget.dfy ===
/** The project summary table (`ProjectSummary.make_rows` in
    `tui/widgets/project.py`). */
module ProjectWidget {
  import opened Strings
  import opened ProjectManager

  /** The cell shown when a project has no resources yet. */
  const ADD_RESOURCES: string := "[bod][red]Add resources![/]"

  /** The configuration column: the project's configuration, or `""`. */
  datatype ConfigCell = Blank | Shown(config: ProjectConfigView)

  datatype SummaryRow = SummaryRow(id: string, resource: string, config: ConfigCell)

  /** `f"{r.url} -> {r.status}"`. */
  function ResourceCell(r: ResourceSummary): (cell: string)
    ensures |cell| == |r.url| + 4 + |r.status.Name()|
    ensures cell[..|r.url|] == r.url && cell[|r.url| + 4..] == r.status.Name()
    ensures cell[|r.url|..|r.url| + 4] == " -> "
    ensures Contains(cell, " -> ")
  {
    var cell := r.url + " -> " + r.status.Name();
    ContainsConcatMiddle(r.url, " -> ", r.status.Name());
    cell
  }

  /** The rows of one project: a single "Add resources!" row when it has no
      resources, otherwise one row per resource in order, where only the
      first row carries the project's id and configuration. */
  function MakeSummaryRows(p: Project): (rows: seq<SummaryRow>)
    ensures |p.resources| == 0 ==> rows == [SummaryRow(p.idForUi, ADD_RESOURCES, Shown(p.config))]
    ensures |p.resources| > 0 ==> |rows| == |p.resources|
    ensures forall i :: 0 <= i < |p.resources| ==> rows[i].resource == ResourceCell(p.resources[i])
    ensures |p.resources| > 0 ==> rows[0].id == p.idForUi && rows[0].config == Shown(p.config)
    ensures forall i :: 0 < i < |p.resources| ==> rows[i].id == "" && rows[i].config == Blank
  {
    if |p.resources| == 0 then [SummaryRow(p.idForUi, ADD_RESOURCES, Shown(p.config))]
    else [SummaryRow(p.idForUi, ResourceCell(p.resources[0]), Shown(p.config))] + LaterRows(p.resources[1..])
  }

  /** The rows after the first: blank id and configuration columns. */
  function LaterRows(resources: seq<ResourceSummary>): (rows: seq<SummaryRow>)
    ensures |rows| == |resources|
    ensures forall i :: 0 <= i < |resources| ==> rows[i] == SummaryRow("", ResourceCell(resources[i]), Blank)
  {
    if resources == [] then [] else [SummaryRow("", ResourceCell(resources[0]), Blank)] + LaterRows(resources[1..])
  }
}

=== FILE: rag_simple.dfy ===
/** The processing ("RAG") stage: its dispatcher and its one placeholder
    handler (`rags/simple.py`). */
module RagSimple {
  import opened Wrappers
  import opened Constants
  import opened Configuration
  import opened Models
  import opened Jobs

  /** `rag_dispatcher`: one job group, the dummy RAG job, whatever the configuration. */
  function RagDispatcher(c: Config): (jobs: seq<Job>)
    ensures |jobs| == 1 && jobs[0].Name() == "dummy rag"
  {
    [DummyRag]
  }

  lemma RagDispatcherIgnoresConfig(c1: Config, c2: Config)
    ensures RagDispatcher(c1) == RagDispatcher(c2) == [DummyRag]
  {
  }

  /** What `dummy_rag` can raise: the related-object `DoesNotExist` of reading
      `resource.conversation` when that conversation is gone, or the
      `IntegrityError` of inserting a log row for a conversation that does not
      exist. */
  datatype RagError =
    | ConversationMissing(conversationId: int)
    | Integrity(error: IntegrityError)

  /** The database after a handler ran, and the exception it raised, if any. */
  datatype Ran = Ran(store: Store, raised: Option<RagError>)

  /** `dummy_rag(conversation_id, resource_id)`. A missing resource gets one
      error entry against the given conversation id and nothing else changes;
      inserting it for a conversation that does not exist raises
      `IntegrityError` and writes nothing. An existing resource is marked
      `Processed` and gets one `RESOURCE_PROCESSED` entry against its own
      conversation; if that conversation is gone, reading it raises
      `DoesNotExist` after the status was saved, and no entry is written. In a
      consistent database an existing resource never raises. */
  function RunDummyRag(s: Store, conversationId: int, resourceId: int): (run: Ran)
    ensures resourceId !in s.resources ==>
      && run.store.resources == s.resources
      && (conversationId in s.conversations ==>
            && run.raised.None?
            && run.store.log == s.log + [LogEntry(conversationId, ResourceProcessingEncounteredError, resourceId, s.clock)])
      && (conversationId !in s.conversations ==>
            run.raised == Some(Integrity(MissingConversation(conversationId))) && run.store == s)
    ensures resourceId in s.resources ==>
      var before := s.resources[resourceId];
      && run.store.resources == s.resources[resourceId := SetProcessed(before)]
      && run.store.resources[resourceId].status == Processed
      && (before.conversationId in s.conversations ==>
            && run.raised.None?
            && run.store.log == s.log + [LogEntry(before.conversationId, ResourceProcessed, resourceId, s.clock)])
      && (before.conversationId !in s.conversations ==>
            run.raised == Some(ConversationMissing(before.conversationId)) && run.store.log == s.log)
    ensures run.store.(resources := s.resources, log := s.log, clock := s.clock) == s
    ensures Valid(s) ==> Valid(run.store)
    ensures Valid(s) && resourceId in s.resources ==> run.raised.None?
  {
    match GetById(s, resourceId)
    case None =>
      (match CreateEvent(s, conversationId, ResourceProcessingEncounteredError, resourceId)
       case Success(s') => Ran(s', None)
       case Failure(e) => Ran(s, Some(Integrity(e))))
    case Some(resource) =>
      var s1 := Save(s, resourceId, SetProcessed(resource));
      if resource.conversationId !in s.conversations then
        Ran(s1, Some(ConversationMissing(resource.conversationId)))
      else
        Ran(AppendEvent(s1, resource.conversationId, ResourceProcessed, resourceId), None)
  }
}

=== FILE: resource_widget.dfy ===
/** The resource screens of the TUI (`tui/widgets/resource.py`): the
    resource table's cell formatting, and the order of the checks when a new
    resource URL is submitted. */
module ResourceWidget {
  import opened Wrappers
  import opened Strings
  import opened Constants
  import opened Configuration
  import Identifiers
  import Models
  import Jobs
  import JobDispatcher

  /** URLs longer than this are cut in the table. */
  const MAX_URL_SHOWN: nat := 50

  /** The table's URL cell: the URL when it has at most 50 characters,
      otherwise its first 50 characters followed by "...". */
  function DisplayUrl(url: string): (shown: string)
    ensures |shown| <= 53
    ensures |url| <= 50 ==> shown == url
    ensures |url| > 50 ==> |shown| == 53 && shown[..50] == url[..50] && shown[50..] == "..."
  {
    if |url| > MAX_URL_SHOWN then url[..MAX_URL_SHOWN] + "..." else url
  }

  /** The table's error cell: the message on one line (every newline became a
      space), and "" when there is no message. */
  function DisplayError(errorMsg: Option<string>): (shown: string)
    ensures '\n' !in shown
    ensures errorMsg.None? ==> shown == ""
    ensures errorMsg.Some? ==>
      && |shown| == |errorMsg.value|
      && forall i :: 0 <= i < |shown| ==>
           shown[i] == (if errorMsg.value[i] == '\n' then ' ' else errorMsg.value[i])
  {
    match errorMsg
    case None => ""
    case Some(m) =>
      if m == "" then ""
      else
        ReplaceCharRemovesTarget(m, '\n', ' ');
        ReplaceChar(m, '\n', ' ')
  }

  datatype TableRow = TableRow(id: int, url: string, status: string, error: string)

  /** `ResroucesList.make_rows`: one table row per resource, in the order
      given; `resources` pairs each row's id with the row. */
  function MakeRows(resources: seq<(int, Models.Resource)>): (rows: seq<TableRow>)
    ensures |rows| == |resources|
    ensures forall i :: 0 <= i < |resources| ==>
      && rows[i].id == resources[i].0
      && rows[i].url == DisplayUrl(resources[i].1.url)
      && rows[i].status == resources[i].1.status.Name()
      && rows[i].error == DisplayError(resources[i].1.errorMsg)
  {
    if resources == [] then []
    else
      var (id, r) := resources[0];
      [TableRow(id, DisplayUrl(r.url), r.status.Name(), DisplayError(r.errorMsg))] + MakeRows(resources[1..])
  }

  /** The exceptions that escape the submit handler. */
  datatype SubmitError =
    | UnparsableProjectUiId(uiId: string)
    | ResourceNotCreated(createError: Models.CreateError)
    | ConfigRejected(resolveError: ResolveError)
    | PlanningFailed(dispatchError: Jobs.DispatchError, partialSteps: seq<seq<JobDispatcher.JobCall<string, int>>>)

  /** How the submit handler ends: the "Invalid URL" notice, the
      configuration-missing screen, an exception, or a planned pipeline whose
      jobs get the active project's UI id and the new resource's id. A
      planning failure keeps the steps already handed to the job runtime. */
  datatype Submitted =
    | InvalidUrl
    | ConfigMissing
    | Raised(error: SubmitError)
    | Planned(steps: seq<seq<JobDispatcher.JobCall<string, int>>>)

  /** `CreateResourceView.on_input_submitted`. `urlValid` is the verdict of
      Django's `URLValidator`, `activeProjectId` the active project's UI id, and
      `trace` the traceback text recorded on a planning failure. `created` is
      the id of the resource row the handler made, if it got that far. */
  method OnInputSubmitted(s: Models.Store, t: Tables, activeProjectId: string, url: string, urlValid: bool, trace: string)
    returns (s': Models.Store, outcome: Submitted, created: Option<int>)
    ensures !urlValid ==> s' == s && outcome == InvalidUrl && created.None?
    ensures urlValid && ConfigRowOfProjectUiId(t, activeProjectId).Failure? ==>
      s' == s && outcome == Raised(UnparsableProjectUiId(activeProjectId)) && created.None?
    ensures urlValid && ConfigRowOfProjectUiId(t, activeProjectId) == Success(None) ==>
      s' == s && outcome == ConfigMissing && created.None?
    ensures created.None? ==> s' == s
    ensures outcome.InvalidUrl? || outcome.ConfigMissing? ==> created.None?
    ensures created.Some? ==>
      && urlValid
      && Models.CreateResource(s, activeProjectId, url).Success?
      && created.value == Models.CreateResource(s, activeProjectId, url).value.1
      && s'.log == Models.CreateResource(s, activeProjectId, url).value.0.log
      && s'.resources.Keys == s.resources.Keys + {created.value}
    ensures created.Some? && Models.Valid(s) ==> created.value !in s.resources && Models.Valid(s')
    ensures outcome.Raised? && outcome.error.ConfigRejected? ==>
      && created.Some?
      && s'.resources[created.value] == Models.NewResource(s'.resources[created.value].conversationId, url, None)
    ensures outcome.Raised? && outcome.error.PlanningFailed? ==>
      && created.Some?
      && s'.resources[created.value].status == Error
      && s'.resources[created.value].errorMsg == Some(trace)
      && s'.resources[created.value].url == url
      && outcome.error.partialSteps
           == [[JobDispatcher.JobCall(Some(Jobs.ScrapeWebPageUsingRequests), activeProjectId, created.value)]]
      && (outcome.error.dispatchError.UnknownChunker? || outcome.error.dispatchError.UnknownProcessor?)
    ensures urlValid && ConfigRowOfProjectUiId(t, activeProjectId).Success?
            && ConfigRowOfProjectUiId(t, activeProjectId).value.Some? ==>
      var row := ConfigRowOfProjectUiId(t, activeProjectId).value.value;
      var made := Models.CreateResource(s, activeProjectId, url);
      && (made.Failure? ==> s' == s && created.None? && outcome == Raised(ResourceNotCreated(made.error)))
      && (made.Success? ==> created == Some(made.value.1))
      && (made.Success? && AtoObj(row, t).Failure? ==>
            s' == made.value.0 && outcome == Raised(ConfigRejected(AtoObj(row, t).error)))
      && (made.Success? && AtoObj(row, t).Success? ==>
            && (outcome.Planned? || (outcome.Raised? && outcome.error.PlanningFailed?))
            && (outcome.Planned? <==>
                  && AtoObj(row, t).value.processor.kind == "Simple RAG"
                  && AtoObj(row, t).value.processor.chunker.kind == "No chunking")
            && (outcome.Planned? ==> s' == made.value.0)
            && (outcome.Raised? ==>
                  s' == Models.Save(made.value.0, made.value.1,
                                    Models.AddError(made.value.0.resources[made.value.1], trace))))
    ensures outcome.Planned? ==>
      && created.Some?
      && s'.resources[created.value].status == New
      && |outcome.steps| == 2
      && outcome.steps[0] == [JobDispatcher.JobCall(Some(Jobs.ScrapeWebPageUsingRequests), activeProjectId, created.value)]
      && outcome.steps[1] == [JobDispatcher.JobCall(Some(Jobs.DummyRag), activeProjectId, created.value)]
  {
    if !urlValid {
      return s, InvalidUrl, None;
    }
    var lookup := ConfigRowOfProjectUiId(t, activeProjectId);
    if lookup.Failure? {
      return s, Raised(UnparsableProjectUiId(activeProjectId)), None;
    }
    if lookup.value.None? {
      return s, ConfigMissing, None;
    }
    var row := lookup.value.value;
    var made := Models.CreateResource(s, activeProjectId, url);
    if made.Failure? {
      return s, Raised(ResourceNotCreated(made.error)), None;
    }
    var s1 := made.value.0;
    var id := made.value.1;
    created := Some(id);
    var config := AtoObj(row, t);
    if config.Failure? {
      return s1, Raised(ConfigRejected(config.error)), created;
    }
    JobDispatcher.ValidConfigReachesRagStage(config.value);
    var steps, raised := JobDispatcher.CreateResourceProcessingPipeline(JobDispatcher.RESOURCE_CREATED, config.value, activeProjectId, id);
    if raised.Some? {
      s' := Models.Save(s1, id, Models.AddError(s1.resources[id], trace));
      return s', Raised(PlanningFailed(raised.value, steps)), created;
    }
    return s1, Planned(steps), created;
  }

  /** `ResourceRow.acreate` reads the id it is given with the "conversation-"
      prefix, so a "project-" UI id never creates a resource: a handler given
      one can end only before the resource row is made. */
  lemma ProjectUiIdCreatesNoResource(s: Models.Store, projectId: int, url: string)
    ensures Models.CreateResource(s, Identifiers.MakeUiId(Identifiers.PROJECT_PREFIX, projectId), url)
            == Failure(Models.BadConversationUiId(Identifiers.MakeUiId(Identifiers.PROJECT_PREFIX, projectId)))
  {
    Identifiers.ProjectUiIdIsNotConversationUiId(projectId);
  }
}

=== FILE: strings.dfy ===
/** The few Python string operations the core relies on, stated once:
    `sub in s`, `s.split(sep)`, `s.replace(a, b)` for one-character `a` and `b`,
    `str(n)` and `int(s)` on decimal integers. */
module Strings {
  import opened Wrappers

  /** Python's `sub in s`: `sub` occurs contiguously somewhere in `s`. */
  predicate Contains(s: string, sub: string)
    decreases |s|
  {
    |sub| <= |s| && (s[..|sub|] == sub || Contains(s[1..], sub))
  }

  /** Whatever surrounds it, a string contains itself. */
  lemma {:induction false} ContainsConcatMiddle(a: string, b: string, c: string)
    ensures Contains(a + b + c, b)
    decreases |a|
  {
    if a == [] {
      assert (a + b + c)[..|b|] == b;
    } else {
      ContainsConcatMiddle(a[1..], b, c);
      assert (a + b + c)[1..] == a[1..] + b + c;
    }
  }

  /** An occurrence at a known index is an occurrence. */
  lemma {:induction false} OccurrenceContained(s: string, sub: string, k: nat)
    requires k + |sub| <= |s| && s[k..k + |sub|] == sub
    ensures Contains(s, sub)
    decreases k
  {
    if k > 0 {
      assert s[1..][k - 1..k - 1 + |sub|] == s[k..k + |sub|];
      OccurrenceContained(s[1..], sub, k - 1);
    }
  }

  /** Where a contained string occurs. */
  lemma {:induction false} OccurrenceOf(s: string, sub: string) returns (k: nat)
    requires Contains(s, sub)
    ensures k + |sub| <= |s| && s[k..k + |sub|] == sub
    decreases |s|
  {
    if s[..|sub|] == sub {
      k := 0;
    } else {
      var k' := OccurrenceOf(s[1..], sub);
      k := k' + 1;
      assert s[k..k + |sub|] == s[1..][k'..k' + |sub|];
    }
  }

  /** Text found in a part is found in the whole. */
  lemma ContainsWithin(a: string, b: string, c: string, sub: string)
    requires Contains(b, sub)
    ensures Contains(a + b + c, sub)
  {
    var k := OccurrenceOf(b, sub);
    var s := a + b + c;
    assert s[|a| + k..|a| + k + |sub|] == b[k..k + |sub|];
    OccurrenceContained(s, sub, |a| + k);
  }

  /** A string cannot contain `sep` if it lacks one of `sep`'s characters. */
  lemma {:induction false} MissingCharNotContained(s: string, sep: string, c: char)
    requires c in sep && c !in s
    ensures !Contains(s, sep)
    decreases |s|
  {
    if |sep| <= |s| {
      var k :| 0 <= k < |sep| && sep[k] == c;
      assert s[..|sep|][k] != sep[k];
      MissingCharNotContained(s[1..], sep, c);
    }
  }

  /** The inverse of `Split`: the pieces glued back together with `sep` between them. */
  function Join(pieces: seq<string>, sep: string): string
    requires |pieces| > 0
    decreases |pieces|
  {
    if |pieces| == 1 then pieces[0] else pieces[0] + sep + Join(pieces[1..], sep)
  }

  lemma JoinStartsWithHead(pieces: seq<string>, sep: string)
    requires |pieces| > 0
    ensures |pieces[0]| <= |Join(pieces, sep)|
    ensures Join(pieces, sep)[..|pieces[0]|] == pieces[0]
  {
  }

  /** Python's `s.split(sep)`: scans left to right, cutting at every
      non-overlapping occurrence of `sep`. */
  function Split(s: string, sep: string): (pieces: seq<string>)
    requires |sep| > 0
    ensures |pieces| > 0
    ensures Join(pieces, sep) == s
    ensures forall i :: 0 <= i < |pieces| ==> !Contains(pieces[i], sep)
    decreases |s|
  {
    if |s| < |sep| then
      [s]
    else if s[..|sep|] == sep then
      var rest := Split(s[|sep|..], sep);
      var pieces := [""] + rest;
      assert pieces[1..] == rest;
      assert s == sep + s[|sep|..];
      pieces
    else
      var rest := Split(s[1..], sep);
      var head := [s[0]] + rest[0];
      var pieces := [head] + rest[1..];
      JoinStartsWithHead(rest, sep);
      assert head[1..] == rest[0];
      assert head == s[..|head|];
      assert pieces[1..] == rest[1..];
      assert Join(pieces, sep) == s by {
        if |rest| == 1 {
          assert s == [s[0]] + s[1..];
        } else {
          assert Join(rest, sep) == rest[0] + sep + Join(rest[1..], sep);
          assert Join(pieces, sep) == head + sep + Join(rest[1..], sep);
          assert s == [s[0]] + s[1..];
        }
      }
      pieces
  }

  /** A string that does not contain `sep` splits into itself alone. */
  lemma SplitWithoutSeparator(s: string, sep: string)
    requires |sep| > 0 && !Contains(s, sep)
    ensures Split(s, sep) == [s]
  {
    var pieces := Split(s, sep);
    if |pieces| > 1 {
      assert s == pieces[0] + sep + Join(pieces[1..], sep);
      ContainsConcatMiddle(pieces[0], sep, Join(pieces[1..], sep));
      assert false;
    }
  }

  function Last<T>(xs: seq<T>): T
    requires |xs| > 0
  {
    xs[|xs| - 1]
  }

  /** The last piece of a join is a suffix of it, and when there is more than
      one piece it is preceded by the separator. */
  lemma {:induction false} JoinEndsWithLast(pieces: seq<string>, sep: string)
    requires |pieces| > 0
    ensures |Last(pieces)| <= |Join(pieces, sep)|
    ensures Join(pieces, sep)[|Join(pieces, sep)| - |Last(pieces)|..] == Last(pieces)
    ensures |pieces| > 1 ==> |Last(pieces)| + |sep| <= |Join(pieces, sep)|
    ensures |pieces| > 1 ==>
      Join(pieces, sep)[|Join(pieces, sep)| - |Last(pieces)| - |sep|..|Join(pieces, sep)| - |Last(pieces)|] == sep
    decreases |pieces|
  {
    if |pieces| > 1 {
      var tail := pieces[1..];
      JoinEndsWithLast(tail, sep);
      assert Last(tail) == Last(pieces);
      var j := Join(pieces, sep);
      var jt := Join(tail, sep);
      assert j == pieces[0] + sep + jt;
      var l := Last(pieces);
      assert j[|j| - |l|..] == jt[|jt| - |l|..];
      if |tail| > 1 {
        assert j[|j| - |l| - |sep|..|j| - |l|] == jt[|jt| - |l| - |sep|..|jt| - |l|];
      } else {
        assert jt == l;
        assert j[|j| - |l| - |sep|..|j| - |l|] == sep;
      }
    }
  }

  /** Python's `s.split(sep)[-1]`: the text after the last cut. It is a suffix
      of `s` free of `sep`, and it is preceded by `sep` whenever a cut was made. */
  function AfterLast(s: string, sep: string): string
    requires |sep| > 0
  {
    Last(Split(s, sep))
  }

  lemma AfterLastSeparator(s: string, sep: string)
    requires |sep| > 0
    ensures |AfterLast(s, sep)| <= |s|
    ensures s[|s| - |AfterLast(s, sep)|..] == AfterLast(s, sep)
    ensures !Contains(AfterLast(s, sep), sep)
    ensures |AfterLast(s, sep)| < |s| ==>
      |AfterLast(s, sep)| + |sep| <= |s| &&
      s[|s| - |AfterLast(s, sep)| - |sep|..|s| - |AfterLast(s, sep)|] == sep
  {
    var pieces := Split(s, sep);
    JoinEndsWithLast(pieces, sep);
    assert Join(pieces, sep) == s;
    assert !Contains(pieces[|pieces| - 1], sep);
    if |pieces| == 1 {
      assert AfterLast(s, sep) == s;
    }
  }

  /** Python's `s.replace(target, replacement)` for single characters. */
  function ReplaceChar(s: string, target: char, replacement: char): (r: string)
    ensures |r| == |s|
    ensures forall i :: 0 <= i < |s| ==> r[i] == (if s[i] == target then replacement else s[i])
    decreases |s|
  {
    if s == [] then []
    else [if s[0] == target then replacement else s[0]] + ReplaceChar(s[1..], target, replacement)
  }

  /** After replacing every `target` by a different character, no `target` is left. */
  lemma ReplaceCharRemovesTarget(s: string, target: char, replacement: char)
    requires target != replacement
    ensures target !in ReplaceChar(s, target, replacement)
  {
    var r := ReplaceChar(s, target, replacement);
    forall i | 0 <= i < |r|
      ensures r[i] != target
    {
    }
  }

  predicate IsDigit(c: char) {
    '0' <= c <= '9'
  }

  predicate AllDigits(s: string) {
    forall i :: 0 <= i < |s| ==> IsDigit(s[i])
  }

  function DigitValue(c: char): nat
    requires IsDigit(c)
  {
    c as int - '0' as int
  }

  function DigitChar(d: nat): (c: char)
    requires d < 10
    ensures IsDigit(c) && DigitValue(c) == d
  {
    "0123456789"[d]
  }

  /** The value of a run of decimal digits, most significant first. */
  function DigitsValue(s: string): nat
    requires AllDigits(s)
    decreases |s|
  {
    if s == [] then 0 else DigitsValue(s[..|s| - 1]) * 10 + DigitValue(s[|s| - 1])
  }

  /** Python's `str(n)` for `n >= 0`: decimal digits without leading zeros. */
  function NatToString(n: nat): (s: string)
    ensures |s| > 0 && AllDigits(s)
    ensures DigitsValue(s) == n
    decreases n
  {
    if n < 10 then [DigitChar(n)]
    else
      var prefix := NatToString(n / 10);
      var s := prefix + [DigitChar(n % 10)];
      assert s[..|s| - 1] == prefix;
      s
  }

  /** Python's `str(n)` for any integer. */
  function IntToString(n: int): string {
    if n < 0 then "-" + NatToString(-n) else NatToString(n)
  }

  /** Python's `int(s)` on an optional sign followed by decimal digits;
      `None` stands for the `ValueError` it raises otherwise. */
  function ParseInt(s: string): Option<int> {
    if |s| > 1 && (s[0] == '-' || s[0] == '+') && AllDigits(s[1..]) then
      var magnitude: int := DigitsValue(s[1..]);
      Some(if s[0] == '-' then -magnitude else magnitude)
    else if |s| > 0 && AllDigits(s) then
      Some(DigitsValue(s))
    else
      None
  }

  /** `int(str(n)) == n`. */
  lemma ParseIntOfIntToString(n: int)
    ensures ParseInt(IntToString(n)) == Some(n)
  {
    var s := IntToString(n);
    if n < 0 {
      assert s[1..] == NatToString(-n);
    }
  }

  /** `str(n)` is made of digits and at most a minus sign. */
  lemma IntToStringAlphabet(n: int, c: char)
    requires !IsDigit(c) && c != '-'
    ensures c !in IntToString(n)
  {
    var s := IntToString(n);
    forall i | 0 <= i < |s|
      ensures s[i] != c
    {
      if n < 0 && i > 0 {
        assert s[i] == NatToString(-n)[i - 1];
      }
    }
  }
}

=== FILE: wrappers.dfy ===
/** Failure-carrying values used in place of Python's `None` returns and raised exceptions. */
module Wrappers {

  /** A value that may be absent: Python's `X | None`. */
  datatype Option<+T> = None | Some(value: T)

  /** Either a value or the exception that was raised instead. */
  datatype Result<+T, +E> = Success(value: T) | Failure(error: E)

  /** A check that either passes or fails with an error: Python's `assert` statements. */
  datatype Outcome<+E> = Pass | Fail(error: E)
}
